=== FILE: README.md ===
# FunGraphics core, modelled in Dafny

FunGraphics is a teaching library that wraps a desktop toolkit's canvas
behind beginner-friendly drawing calls (`setColor`, `drawLine`,
`drawFilledPolygon`, `drawFancyString`, `drawBackground`, …), plus a polling
loop that pumps input events into duck-typed listener objects. The library
exists twice: as one file (`fungraphics.py`) and as a package module
(`src/fungraphics/fun_graphics.py`). An example hangman game sits on top of it.

This project models the decision logic of that core as pure functions over
immutable values:

- **Canvas** (`canvas.dfy`): the toolkit canvas is an ordered log of items.
  Each item has a fresh integer id and an abstract shape: kind, coordinates,
  fill/outline/width keywords, anchor and text. `delete(id)` and
  `delete("all")` are modelled too.
- **Façade** (`fungraphics.dfy`): the façade state is the pen (colour, width,
  font), the active layer, the closed-window flag, the three listener lists
  and the canvas. Every public method is one transition on that state.
  - Both copies of the library are covered by one `Variant` parameter where
    their code differs. `getStringSize` differs: the single file answers
    (0, 0) on a closed window, and the package measures anyway.
  - Their bitmaps differ too. The single file keeps the decoded image
    (`pil_image`), so its transformed and mirrored drawing uses the processed
    image. The package's `GraphicsBitmap` never sets `pil_image`, so those
    calls always fall back to `drawPicture`. For the package the processed
    image is never used.
  - The toolkit's `bbox` is a function parameter.
- **Session** (`session.dfy`): a command datatype with one constructor per
  drawing, measuring, layer and listener method, and `Run` over a sequence of
  commands. `drawTransformedPicture` and `drawMirroredPicture` share one
  constructor, since both draw the processed image or fall back.
  `saveAsPNG` and `syncGameLogic` have no constructor: the first is file
  I/O, the second is modelled as its exit decision. This carries the
  state-machine properties: a closed window is absorbing, layer switches are
  invisible to the log, and `clear` wipes both layers.
- **Colour and numerals** (`colour.dfy`, `numerals.dfy`): `_rgb_to_hex`,
  Python's `"%02x"` and `str(int)`. Each has a parser as its proven inverse.
- **Outline** (`outline.dfy`): the ring of offsets that `drawFancyString`
  stamps.
- **Listeners** (`listeners.dfy`): capability-filtered dispatch in
  registration order.
- **Bitmap** (`bitmap.dfy`): the resource-path normalisation of
  `GraphicsBitmap` and its 0 × 0 fallback. Decoding is a `load` parameter.
- **Hangman** (`hangman.dfy`): the masked word, `check_letter`, the round loop
  with its step counter, the verdict, and the view drawn through the façade.
  The dialog input is a parameter.

Behaviour worth noting:

- `getStringSize` on a closed window returns (0, 0) only in the single file.
- Listeners are kept in lists and called in registration order.
- `clear` does not reset the active layer.
- The default alignment arguments of `drawStringAligned` (left, bottom) select
  "sw". Only unrecognised pairs fall back to "nw".

## Model

| member | source | states |
|---|---|---|
| `Numerals.Hex02` | fungraphics.py:150 | `"%02x" % v`: for 0..255, two lower-case hex digits that read back as v; a `-` sign exactly for negative v; more than two digits from 256 up |
| `Numerals.FromBaseToBase` | fungraphics.py:150 | reading a numeral back gives the number it was printed from |
| `Numerals.DecimalString` | fungraphics.py:107 | `str(v)`: non-empty, digits only apart from a leading `-`, which appears exactly for negative v, and no leading zeros ("0" is the only text starting with '0', and no '0' follows the sign) |
| `Numerals.DecimalRoundTrip` | fungraphics.py:107 | the decimal text of every integer parses back to that integer |
| `Colour.RgbToHex` | fungraphics.py:147-151 | fewer than 3 components give "#000000"; in-range RGB gives "#" plus six lower-case hex digits that parse back to the three channels |
| `Colour.AlphaIgnored` | src/fungraphics/fun_graphics.py:76-80 | an alpha (or any further) component never changes the encoding |
| `Colour.RgbToHexInjective` | fungraphics.py:147-151 | two in-range colours with the same string agree on all three channels |
| `Colour.WhiteIsFfffff` | fungraphics.py:143 | white encodes as "#ffffff" |
| `Colour.BlackIs000000` | fungraphics.py:123 | black encodes as "#000000", the default pen colour |
| `Colour.RedWithAlpha` | fungraphics.py:164-169 | (255, 0, 0, 17) encodes as "#ff0000" |
| `Canvas.Create` | fungraphics.py:186 | one `create_*` call: the shape goes on top under the next id, and the counter advances by one |
| `Canvas.CreateAll` | fungraphics.py:309-321 | several `create_*` calls in a row: the shapes go on top in call order, and the counter advances by their number |
| `Canvas.Without` | fungraphics.py:262 | the items kept are exactly those with a different id; with no item of that id nothing changes |
| `Canvas.WithoutSingle` | fungraphics.py:262 | a one-item log keeps its item exactly when the id differs |
| `Canvas.WithoutConcat` | fungraphics.py:262 | deleting from two logs in a row deletes from each and keeps them in order, so the survivors keep their stacking order |
| `Canvas.Delete` | fungraphics.py:262 | `delete(id)` removes exactly the items with that id and keeps the counter and background |
| `Canvas.DeleteKeepsOrder` | fungraphics.py:262 | for a log split anywhere, `delete(id)` filters each part and keeps the parts in order |
| `Canvas.CreateThenDelete` | fungraphics.py:259-262 | creating an item and deleting it by its fresh id leaves the log exactly as it was |
| `Outline.Offsets` | fungraphics.py:310-313 | no offsets unless the thickness is positive; (2t+1)²−1 of them otherwise |
| `Outline.RingShape` | fungraphics.py:308-313 | thickness t > 0 gives (2t+1)²−1 offsets: exactly [-t,t]² minus the centre, in dx-major ascending order |
| `Outline.RingDistinct` | fungraphics.py:310-313 | the loops never visit the same offset twice |
| `Outline.ThicknessTwo` | fungraphics.py:310-313 | thickness 2 gives 24 offsets |
| `Listeners.Dispatch` | fungraphics.py:468-470 | invokes the callback on exactly the listeners that define it, once each, in registration order, with the one event record |
| `Listeners.SkipsIncapable` | src/fungraphics/fun_graphics.py:371-373 | a listener without the callback is never invoked |
| `Listeners.Register` | fungraphics.py:460 | registration appends at the end and keeps the earlier listeners in place |
| `Bitmap.LStripSlashes` | src/fungraphics/utils.py:14 | the result is a suffix of the path, everything removed was '/', and it does not start with '/' |
| `Bitmap.NormalisePath` | src/fungraphics/utils.py:10-16 | a path without a leading '/' is unchanged; otherwise all leading slashes go; the result is always a suffix and never starts with '/' |
| `Bitmap.NormaliseIdempotent` | src/fungraphics/utils.py:10-16 | normalising twice equals normalising once |
| `Bitmap.Load` | src/fungraphics/utils.py:5-25 | the package's bitmap holds whatever loading the normalised path gives and is never decoded |
| `Bitmap.LoadStandalone` | fungraphics.py:58-78 | the single file's bitmap loads the path as given and is decoded exactly when loading succeeded |
| `Bitmap.Width` | src/fungraphics/utils.py:27-30 | 0 when loading failed, the image width otherwise |
| `Bitmap.Height` | src/fungraphics/utils.py:32-35 | 0 when loading failed, the image height otherwise |
| `Bitmap.FailedLoadIsEmpty` | src/fungraphics/utils.py:18-35 | a failed load reports width 0 and height 0 |
| `Bitmap.ResourcePathExample` | src/fungraphics/utils.py:10-14 | "//img/cat.png" opens "img/cat.png"; "img/cat.png" is kept |
| `FunGraphics.Geometry` | fungraphics.py:106-109 | "WxH+X+Y" with the decimal numbers when both offsets are non-negative, "WxH" otherwise; '+' appears exactly in the first case |
| `FunGraphics.GeometryRoundTrip` | fungraphics.py:106-109 | reading the geometry string back gives the width, the height and, exactly when both are non-negative, the offsets |
| `FunGraphics.HangmanGeometry` | examples/hangman.py:43 | the hangman window (no offsets) gets "300x300" |
| `FunGraphics.New` | fungraphics.py:97-145 | new window: open, empty log on a white background, black pen of width 1 in Arial 20, foreground layer, no listeners |
| `FunGraphics.Clear` | fungraphics.py:157-162 | closed: no change; open: empty log, background set to the colour's encoding, nothing else changes |
| `FunGraphics.SetColor` | fungraphics.py:164-169 | only the pen colour changes, to the colour's encoding, even on a closed window |
| `FunGraphics.Truncate` | fungraphics.py:180 | `int(w)` truncates toward zero: the result is within 1 of w, on w's side of 0 |
| `FunGraphics.SetPenWidth` | fungraphics.py:178-180 | only the pen width changes, to `int(width)` |
| `FunGraphics.Fill` | fungraphics.py:175 | the override's encoding if given, else the pen colour |
| `FunGraphics.SetPixel` | fungraphics.py:171-176 | closed: no change; open: exactly one 1×1 filled rectangle without outline is appended, nothing else changes |
| `FunGraphics.DrawLine` | fungraphics.py:182-186 | closed: no change; open: exactly one line in pen colour and width is appended |
| `FunGraphics.DrawRect` | fungraphics.py:188-192 | closed: no change; open: one outlined rectangle from (x,y) to (x+w,y+h) is appended |
| `FunGraphics.DrawFillRect` | fungraphics.py:194-198 | closed: no change; open: one filled rectangle without outline is appended |
| `FunGraphics.DrawCircle` | fungraphics.py:200-204 | closed: no change; open: one outlined oval in the d×d box is appended |
| `FunGraphics.DrawFilledCircle` | src/fungraphics/fun_graphics.py:125-128 | closed: no change; open: one filled oval in the d×d box is appended |
| `FunGraphics.DrawFilledOval` | fungraphics.py:212-216 | closed: no change; open: one filled oval in the w×h box is appended |
| `FunGraphics.Flatten` | fungraphics.py:224 | length 2n, with entries 2i and 2i+1 equal to vertex i |
| `FunGraphics.DrawPolygon` | fungraphics.py:218-225 | fewer than 3 points: no change; otherwise (open) one unfilled polygon over the flattened points is appended |
| `FunGraphics.DrawFilledPolygon` | src/fungraphics/fun_graphics.py:159-167 | fewer than 3 points: no change; otherwise one polygon filled and outlined in the same colour (the override, else the pen's) is appended |
| `FunGraphics.DrawString` | fungraphics.py:241-247 | closed: no change; open: one text item anchored "nw" is appended |
| `FunGraphics.GetStringSize` | fungraphics.py:249-267 | single file, closed: (0,0) and no change; otherwise the log is unchanged, only the id counter advances, and the size is the bbox extent, or (0,0) without a bbox |
| `FunGraphics.VariantsAgreeWhileOpen` | src/fungraphics/fun_graphics.py:169-185 | on an open window both copies measure identically |
| `FunGraphics.AnchorFor` | fungraphics.py:293 | any pair outside the 3×3 alignment grid gives "nw" |
| `FunGraphics.AnchorTable` | fungraphics.py:281-291 | each of the nine pairs gives its compass anchor, and the anchor reads back to the pair |
| `FunGraphics.AnchorsDistinct` | src/fungraphics/fun_graphics.py:199-209 | distinct alignment pairs give distinct anchors |
| `FunGraphics.DefaultAlignment` | fungraphics.py:269 | the default arguments (left, bottom) anchor at "sw" |
| `FunGraphics.DrawStringAligned` | fungraphics.py:269-294 | closed: no change; open: exactly one text item at the selected anchor is appended |
| `FunGraphics.OutlineStamps` | fungraphics.py:309-313 | one white "nw" text stamp per offset, at (x+dx, y+dy), in offset order |
| `FunGraphics.FancyStamps` | fungraphics.py:304-321 | the ring stamps come first, then the grey shadow at (x+s, y+s) only when s > 0, then the main text at (x,y) last |
| `FunGraphics.DrawFancyString` | src/fungraphics/fun_graphics.py:214-239 | closed: no change; open: the whole stamp plan is appended in order |
| `FunGraphics.FancyCount` | fungraphics.py:308-321 | thickness t > 0 gives (2t+1)²−1 + [s>0] + 1 stamps |
| `FunGraphics.FancyRingCovers` | fungraphics.py:310-313 | every non-centre offset of [-t,t]² gets a white stamp among the ring stamps |
| `FunGraphics.FancyRingExact` | src/fungraphics/fun_graphics.py:226-231 | the ring stamps are white, lie on the ring around (x,y), and no two coincide |
| `FunGraphics.FancyExample` | fungraphics.py:296-321 | t=2, s=3: 26 stamps, with the shadow at index 24 and the main text at index 25 |
| `FunGraphics.DrawPicture` | fungraphics.py:327-332 | no image: no change; otherwise (open) one picture centred at (x,y) is appended |
| `FunGraphics.DrawProcessedPicture` | fungraphics.py:334-371 | no image: no change; not decoded: same as drawPicture; otherwise the processed image is drawn centred |
| `FunGraphics.PackageTransformsFallBack` | src/fungraphics/fun_graphics.py:259-263 | a package bitmap is never decoded, so a transformed or mirrored drawing is exactly `drawPicture` |
| `FunGraphics.StandaloneTransformsApply` | fungraphics.py:66-69 | a single-file bitmap that loaded is decoded, so the processed image is what gets drawn |
| `FunGraphics.DrawBackground` | fungraphics.py:444-446 | only the layer flag changes, to background |
| `FunGraphics.DrawForeground` | src/fungraphics/fun_graphics.py:354-356 | only the layer flag changes, to foreground |
| `FunGraphics.SetKeyManager` | src/fungraphics/fun_graphics.py:359-363 | only the key-listener list changes, by appending the listener |
| `FunGraphics.AddMouseListener` | fungraphics.py:482-486 | only the mouse-listener list changes, by appending the listener |
| `FunGraphics.AddMouseMotionListener` | src/fungraphics/fun_graphics.py:391-395 | only the motion-listener list changes, by appending the listener |
| `FunGraphics.OnKeyPress` | fungraphics.py:462-470 | keyPressed(key) reaches exactly the key listeners defining it, in registration order |
| `FunGraphics.OnKeyRelease` | src/fungraphics/fun_graphics.py:375-383 | keyReleased(key) reaches exactly the key listeners defining it, in registration order |
| `FunGraphics.OnMouseClick` | fungraphics.py:494-504 | mouseClicked(x, y, button) reaches exactly the mouse listeners defining it, in order |
| `FunGraphics.OnMouseMotion` | src/fungraphics/fun_graphics.py:409-418 | mouseMoved(x, y) reaches exactly the motion listeners defining it, in order |
| `FunGraphics.OnWindowClose` | fungraphics.py:517-522 | the window is marked closed, nothing else changes, and the process exits with 0 |
| `FunGraphics.SyncGameLogic` | fungraphics.py:533-544 | exits (status 0, window closed) exactly when already closed or the toolkit is gone; otherwise the state is unchanged |
| `Session.ApplyInvariants` | src/fungraphics/fun_graphics.py:82-395 | no call opens or closes the window or breaks id numbering; only clear sets the background; listener lists only grow |
| `Session.RunInvariants` | fungraphics.py:157-492 | the same over any sequence of calls; in particular a sequence without a clear leaves the background as it was |
| `Session.Apply` | fungraphics.py:159-160 | one call; on a closed window every guarded call is a no-op |
| `Session.Run` | src/fungraphics/fun_graphics.py:82-84 | once closed, any sequence of guarded calls leaves the whole state unchanged |
| `Session.ClosedLogFrozen` | src/fungraphics/fun_graphics.py:169-185 | in the model, once closed, no call sequence changes the log or background in either copy; the single file also keeps the id counter |
| `Session.PackageProbeOnClosedWindow` | src/fungraphics/fun_graphics.py:174-180 | in the model, on a closed window the package's measurement advances the id counter, and the single file's changes nothing |
| `Session.ApplyIgnoresLayer` | fungraphics.py:444-450 | no call reads the active layer |
| `Session.RunIgnoresLayer` | fungraphics.py:117-120 | a run and the same run without layer switches end in states that differ at most in the layer |
| `Session.LayerSwitchesInvisible` | src/fungraphics/fun_graphics.py:349-356 | removing every layer switch from a session leaves the final canvas identical |
| `Session.ClearWipesEverything` | src/fungraphics/fun_graphics.py:82-86 | after any session on an open window, a final clear leaves an empty log with the requested background |
| `Hangman.Lower` | examples/hangman.py:22 | ASCII lower-casing: capitals shift by 32, everything else is kept, and no capital remains |
| `Hangman.LowerString` | examples/hangman.py:18 | the lower-cased secret, position by position |
| `Hangman.AskSecretWord` | examples/hangman.py:16-19 | the secret is the lower-cased input; the user word is all '*' with the same length |
| `Hangman.Reveal` | examples/hangman.py:26-29 | from position i on, exactly the positions holding c get c; the flag says whether any did |
| `Hangman.CheckLetter` | examples/hangman.py:21-32 | returns true iff the lower-cased letter occurs in the secret; the letter goes exactly where the secret has it, and the length is kept |
| `Hangman.CheckLetterMasks` | examples/hangman.py:26-29 | every position stays either '*' or the secret letter |
| `Hangman.CheckLetterIdempotent` | examples/hangman.py:24-31 | repeating a letter changes nothing and gives the same answer |
| `Hangman.CheckLetterMonotone` | examples/hangman.py:26-29 | revealed letters stay revealed |
| `Hangman.IsWordComplete` | examples/hangman.py:34-35 | complete iff no position shows '*'; a complete masked word equals the secret |
| `Hangman.CompleteIffGuessed` | examples/hangman.py:34-35 | for a secret without '*', complete iff the user word equals the secret |
| `Hangman.StarInSecretNeverCompletes` | examples/hangman.py:18-35 | a secret containing '*' can never be completed |
| `Hangman.CheckAll` | examples/hangman.py:100-102 | checking letters in turn keeps the mask invariant and the secret |
| `Hangman.CheckAllReveals` | examples/hangman.py:100-107 | a position is revealed if it was before or its letter was guessed at some point |
| `Hangman.GuessingEveryLetterWins` | examples/hangman.py:98-107 | guessing every secret letter, in any order or case, reveals the whole word |
| `Hangman.BeginRound` | examples/hangman.py:89-92 | a round begins by clearing an open window to white, which empties the log and keeps the pen, and then takes the secret as `StartRound` does; a closed window is left alone |
| `Hangman.StartRound` | examples/hangman.py:89-92 | a round starts at step 0, playing, with a masked fresh secret that is incomplete when non-empty |
| `Hangman.Guess` | examples/hangman.py:100-112 | a hit keeps the step and stops iff the word is complete; a miss adds exactly 1 (never past the maximum) |
| `Hangman.GuessKeepsInvariant` | examples/hangman.py:98-114 | one iteration keeps the round invariant |
| `Hangman.Play` | examples/hangman.py:98-114 | the loop keeps the invariant; the step never exceeds 8 and rises by at most 1 per letter |
| `Hangman.LoopExitIff` | examples/hangman.py:98 | for a non-empty secret the loop ends iff the step is 8 or the word is complete |
| `Hangman.Verdict` | examples/hangman.py:81 | "LOSER" iff the step equals MAX_STEPS, and "YOU WON !" otherwise |
| `Hangman.VerdictOfFinishedRound` | examples/hangman.py:81-82 | a finished round with a non-empty secret is won iff the word is complete |
| `Hangman.EmptySecretLoses` | examples/hangman.py:98-112 | with an empty secret every letter is a miss, so the step climbs to 8 |
| `Hangman.StickmanPart` | examples/hangman.py:52-69 | on an open window the step's part appends exactly the shapes of `PartShapes`: the legs (110,210)-(120,190) and (130,210)-(120,190) at step 1, the post (120,190)-(120,100) at 2, the beam (120,100)-(180,100) at 3, the rope (180,100)-(180,110) at 4, the head as an outline oval in the box (170,110)-(190,130) at 5, the body (180,130)-(180,170) at 6, the legs (170,190)-(180,170) and (180,170)-(190,190) at 7, the arms (170,150)-(190,150) at 8, all in the pen's colour and width, and nothing at any other step; the pen is kept |
| `Hangman.UpdateGraphicsView` | examples/hangman.py:47-85 | the view never closes or reopens the window and draws nothing on a closed one |
| `Hangman.ViewShapes` | examples/hangman.py:47-82 | the view keeps the earlier shapes, adds the step's `PartShapes` in black at the current width, then the white 300×100 box without outline and the black "Word : " line with the mask at (20, 40), and, when running, a last line reading "Result : LOSER" iff the step is 8; the pen ends black |
| `Hangman.WordView` | examples/hangman.py:47-78 | without the result line, the view keeps the earlier shapes, appends the step's part in black, and ends with the white box and the black word line showing the mask |
| `Hangman.ResultLine` | examples/hangman.py:80-82 | the running view adds exactly one text line, which reads "Result : LOSER" iff the step is 8 |

## Left out

- Frame pacing in `syncGameLogic`: wall-clock time, float division and `sleep`. Only the exit decision is modelled (`FunGraphics.SyncGameLogic`).
- The real window, event loop and event sources. Dispatch is modelled as the calls it makes. Destroying the window and exiting the process are modelled as a result value.
- Image decoding, resizing, rotating and mirroring, and `saveAsPNG`. These are imaging-library calls and file I/O. The decoded or processed image is a parameter. The `_image_refs` list only keeps images alive and is left out.
- Font metrics: the toolkit's `bbox` is a parameter of `FunGraphics.GetStringSize`.
- `FunGraphics.GetStringSize`: in the package, a measurement on a closed window is modelled as creating and deleting a probe on the canvas. The window is marked closed only when the toolkit window is being destroyed or already gone, so the real `create_text` on it raises a toolkit error and the call returns nothing. That error is not modelled; `Session.PackageProbeOnClosedWindow` and the package half of `Session.ClosedLogFrozen` are properties of the model, not of the running library.
- `Listeners.Dispatch`: callbacks are assumed to return normally. In Python a callback that raises ends the loop, and the toolkit only reports the error, so the later capable listeners do not get that event; the model has no such error path. It also dispatches over the listener list and the listeners' capabilities as they are when the event arrives. Python iterates the live list and checks `hasattr` on the live object, so a listener registered, or a method added, by a callback during the same dispatch can be reached; the model does not see it.
- `FunGraphics.StandaloneTransformsApply`: assumes the imaging library is installed. Without it, the single file's bitmap loads through the toolkit without a decoded image, and transforms fall back to `drawPicture` as in the package.
- Default arguments (for example `font_size=20`, `shadow_offset=2`, `outline_thickness=0`, `halign="left"`, `valign="bottom"`): every parameter is explicit in the model, so a call relying on a default is modelled by passing the default's value. Only the alignment defaults have their own lemma (`FunGraphics.DefaultAlignment`).
- Unicode case mapping: `Hangman.Lower` is ASCII only.
- `Colour.RgbToHex`: channels outside 0..255 are formatted as Python does (300 gives "12c", -1 gives "-1"), but the toolkit then rejects the colour string with an error. The model's canvas accepts any colour string, so that error is not modelled: `clear` with such a colour would in reality raise after emptying the canvas and keep the old background, and a drawing call using it would raise without drawing.
- Non-integer coordinates, sizes and colour channels, colours that are not tuples, and points that are not pairs. Python accepts or rejects these at run time; the model has integer tuples and (x, y) pairs. `setPenWidth` does take a real, and its truncation is modelled.
- Console output (`print`) in the hangman game, the "play again" outer loop and its `sys.exit`, and the `syncGameLogic(60)` call that ends `update_graphics_view`.
- `Hangman.Play`: when the letters run out while the round is still on, the model stops. The real game would block in the dialog.
- The `background_items` and `foreground_items` lists of the façade. They are created but never used.
- Dialog and console input helpers, the demo scripts, packaging and re-exports. None of them is part of the drawing or game logic.

=== FILE: bitmap.dfy ===
/**
 * Picture loading (`GraphicsBitmap`). Decoding a file is done by the toolkit
 * and is passed in as `load`, which answers `None` when the file is missing or
 * its format is not supported; the bitmap then reports a 0 × 0 size and is
 * never drawn.
 */
module Bitmap {
  import opened Wrappers
  import opened Canvas

  /**
   * A loaded picture: the toolkit image, if loading worked, and whether the
   * imaging library also holds the decoded picture (`pil_image` is set), which
   * the rotating, scaling and mirroring calls need.
   */
  datatype Bitmap = Bitmap(image: Option<Image>, decoded: bool)

  predicate StartsWithSlash(p: string) {
    |p| > 0 && p[0] == '/'
  }

  /** Python's `p.lstrip("/")`. */
  function LStripSlashes(p: string): (r: string)
    decreases |p|
    ensures |r| <= |p| && r == p[|p| - |r|..]
    ensures forall i :: 0 <= i < |p| - |r| ==> p[i] == '/'
    ensures !StartsWithSlash(r)
  {
    if StartsWithSlash(p) then LStripSlashes(p[1..]) else p
  }

  /**
   * The path the package's `GraphicsBitmap` opens: a "resource" path starting
   * with "/" loses all its leading slashes, any other path is used as given.
   */
  function NormalisePath(p: string): (r: string)
    ensures !StartsWithSlash(p) ==> r == p
    ensures !StartsWithSlash(r)
    ensures |r| <= |p| && r == p[|p| - |r|..]
    ensures forall i :: 0 <= i < |p| - |r| ==> p[i] == '/'
  {
    if StartsWithSlash(p) then LStripSlashes(p) else p
  }

  /**
   * `GraphicsBitmap(path)` of the package: load the normalised path with the
   * toolkit alone, so the imaging library never holds the picture.
   */
  function Load(path: string, load: string -> Option<Image>): (b: Bitmap)
    ensures b.image == load(NormalisePath(path))
    ensures !b.decoded
  {
    Bitmap(load(NormalisePath(path)), false)
  }

  /**
   * `GraphicsBitmap(path)` of the single-file library: the path is not
   * normalised, and the imaging library decodes it, so a loaded picture is
   * also held decoded.
   */
  function LoadStandalone(path: string, load: string -> Option<Image>): (b: Bitmap)
    ensures b.image == load(path)
    ensures b.decoded <==> b.image.Some?
  {
    Bitmap(load(path), load(path).Some?)
  }

  /** `getWidth`: the image's width, or 0 when loading failed. */
  function Width(b: Bitmap): (w: int)
    ensures b.image.None? ==> w == 0
    ensures b.image.Some? ==> w == b.image.value.width
  {
    if b.image.Some? then b.image.value.width else 0
  }

  /** `getHeight`: the image's height, or 0 when loading failed. */
  function Height(b: Bitmap): (h: int)
    ensures b.image.None? ==> h == 0
    ensures b.image.Some? ==> h == b.image.value.height
  {
    if b.image.Some? then b.image.value.height else 0
  }

  /** Normalising is idempotent: a normalised path is used unchanged. */
  lemma NormaliseIdempotent(p: string)
    ensures NormalisePath(NormalisePath(p)) == NormalisePath(p)
  {
  }

  /** A failed load reports a 0 × 0 bitmap whatever path was asked for. */
  lemma FailedLoadIsEmpty(path: string, load: string -> Option<Image>)
    requires load(NormalisePath(path)).None?
    ensures Width(Load(path, load)) == 0 && Height(Load(path, load)) == 0
  {
  }

  lemma ResourcePathExample()
    ensures NormalisePath("//img/cat.png") == "img/cat.png"
    ensures NormalisePath("img/cat.png") == "img/cat.png"
  {
    var p0, p1, p2 := "//img/cat.png", "/img/cat.png", "img/cat.png";
    assert p2[0] == 'i' && !StartsWithSlash(p2);
    assert LStripSlashes(p2) == p2;
    assert p1[1..] == p2 && StartsWithSlash(p1);
    assert LStripSlashes(p1) == p2;
    assert p0[1..] == p1 && StartsWithSlash(p0);
    assert LStripSlashes(p0) == p2;
  }
}

=== FILE: canvas.dfy ===
/**
 * The toolkit canvas the façade draws on, as an ordered log of items. Each
 * `create_*` call appends one item under a fresh integer id (ids only grow),
 * `delete(id)` removes the item with that id, and `delete("all")` empties the
 * log. The background colour is a separate property of the canvas.
 */
module Canvas {
  import opened Wrappers

  datatype Font = Font(family: string, size: int)

  /**
   * The styling keywords passed to a `create_*` call. `None` is a keyword the
   * call leaves out (the toolkit default applies); `Some("")` is an explicitly
   * empty colour, i.e. no outline or no fill.
   */
  datatype Paint = Paint(fill: Option<string>, outline: Option<string>, width: Option<int>)

  /** A loaded picture; its pixels are not modelled. */
  datatype Image = Image(handle: nat, width: int, height: int)

  datatype Shape =
    | Line(coords: seq<int>, paint: Paint)
    | Rectangle(coords: seq<int>, paint: Paint)
    | Oval(coords: seq<int>, paint: Paint)
    | Polygon(coords: seq<int>, paint: Paint)
    | Text(x: int, y: int, text: string, fill: Option<string>, font: Font, anchor: string)
    | Picture(x: int, y: int, image: Image, anchor: string)

  datatype Item = Item(id: nat, shape: Shape)

  datatype Surface = Surface(items: seq<Item>, nextId: nat, background: string) {

    /** Every item on the canvas was created before the id counter's current value. */
    predicate Valid() {
      forall i :: 0 <= i < |items| ==> items[i].id < nextId
    }
  }

  /** The shapes on the canvas in creation (stacking) order. */
  function Shapes(items: seq<Item>): (r: seq<Shape>)
    ensures |r| == |items|
    ensures forall i :: 0 <= i < |items| ==> r[i] == items[i].shape
  {
    seq(|items|, i requires 0 <= i < |items| => items[i].shape)
  }

  /** A `create_*` call: one new item on top, under the next id. */
  function Create(s: Surface, shape: Shape): (r: Surface)
    ensures Shapes(r.items) == Shapes(s.items) + [shape]
    ensures r.nextId == s.nextId + 1 && r.background == s.background
    ensures |r.items| == |s.items| + 1 && r.items[|s.items|].id == s.nextId
    ensures s.Valid() ==> r.Valid()
  {
    Surface(s.items + [Item(s.nextId, shape)], s.nextId + 1, s.background)
  }

  /** Several `create_*` calls in a row. */
  function CreateAll(s: Surface, shapes: seq<Shape>): (r: Surface)
    decreases |shapes|
    ensures Shapes(r.items) == Shapes(s.items) + shapes
    ensures r.nextId == s.nextId + |shapes| && r.background == s.background
    ensures s.Valid() ==> r.Valid()
  {
    if shapes == [] then
      s
    else
      var r := CreateAll(Create(s, shapes[0]), shapes[1..]);
      assert [shapes[0]] + shapes[1..] == shapes;
      r
  }

  /** The items whose id differs from `id`, in their original order. */
  function Without(items: seq<Item>, id: nat): (r: seq<Item>)
    decreases |items|
    ensures forall it :: it in r <==> it in items && it.id != id
    ensures (forall i :: 0 <= i < |items| ==> items[i].id != id) ==> r == items
    ensures |r| <= |items|
  {
    if items == [] then
      []
    else
      assert items == [items[0]] + items[1..];
      (if items[0].id != id then [items[0]] else []) + Without(items[1..], id)
  }

  /** `delete(id)`. */
  function Delete(s: Surface, id: nat): (r: Surface)
    ensures forall it :: it in r.items <==> it in s.items && it.id != id
    ensures r.nextId == s.nextId && r.background == s.background
    ensures s.Valid() ==> r.Valid()
  {
    s.(items := Without(s.items, id))
  }

  /**
   * Creating an item and deleting it again by the id it received leaves the
   * log exactly as it was: the fresh id cannot name an older item.
   */
  lemma {:induction false} CreateThenDelete(s: Surface, shape: Shape)
    requires s.Valid()
    ensures Delete(Create(s, shape), s.nextId).items == s.items
    ensures Delete(Create(s, shape), s.nextId).nextId == s.nextId + 1
  {
    var c := Create(s, shape);
    assert c.items == s.items + [Item(s.nextId, shape)];
    WithoutConcat(s.items, [Item(s.nextId, shape)], s.nextId);
    WithoutSingle(Item(s.nextId, shape), s.nextId);
    assert Without(s.items, s.nextId) == s.items;
  }

  /** One item survives exactly when its id differs. */
  lemma WithoutSingle(it: Item, id: nat)
    ensures Without([it], id) == if it.id != id then [it] else []
  {
    assert [it][1..] == [];
  }

  /**
   * Deleting from a concatenation deletes from each part and keeps them in
   * order; with `WithoutSingle` this makes `Without` the order-keeping
   * filter, so the survivors keep their stacking order.
   */
  lemma {:induction false} WithoutConcat(a: seq<Item>, b: seq<Item>, id: nat)
    ensures Without(a + b, id) == Without(a, id) + Without(b, id)
    decreases |a|
  {
    if a == [] {
      assert a + b == b;
    } else {
      var h := if a[0].id != id then [a[0]] else [];
      var w1, w2 := Without(a[1..], id), Without(b, id);
      ConsSplit(a, b);
      WithoutCons(a[0], a[1..] + b, id);
      WithoutCons(a[0], a[1..], id);
      WithoutConcat(a[1..], b, id);
      AppendAssoc(h, w1, w2);
    }
  }

  /** The unfolding of `Without` at its first item. */
  lemma WithoutCons(it: Item, rest: seq<Item>, id: nat)
    ensures Without([it] + rest, id) == (if it.id != id then [it] else []) + Without(rest, id)
  {
    assert ([it] + rest)[1..] == rest;
  }

  /**
   * `delete(id)` on a log split anywhere: each part loses its items with that
   * id and the parts stay in order, so the other items keep their stacking
   * order.
   */
  lemma DeleteKeepsOrder(s: Surface, front: seq<Item>, back: seq<Item>, id: nat)
    requires s.items == front + back
    ensures Delete(s, id).items == Without(front, id) + Without(back, id)
  {
    WithoutConcat(front, back, id);
  }

  lemma AppendAssoc(x: seq<Item>, y: seq<Item>, z: seq<Item>)
    ensures x + (y + z) == (x + y) + z
  {
  }

  lemma ConsSplit(a: seq<Item>, b: seq<Item>)
    requires a != []
    ensures a == [a[0]] + a[1..]
    ensures a + b == [a[0]] + (a[1..] + b)
  {
  }
}

=== FILE: colour.dfy ===
/**
 * Colour encoding of the drawing façade: a colour is a Python tuple of
 * integers, (R, G, B) or (R, G, B, A), and the toolkit receives the string
 * "#rrggbb". Alpha is never looked at; a tuple shorter than three gives black.
 */
module Colour {
  import opened Wrappers
  import opened Numerals

  predicate IsChannel(v: int) {
    0 <= v < 256
  }

  /** The first three components exist and are all in 0..255. */
  predicate IsRgb(color: seq<int>) {
    |color| >= 3 && IsChannel(color[0]) && IsChannel(color[1]) && IsChannel(color[2])
  }

  /** "#" followed by six lower-case hexadecimal digits. */
  predicate IsHexColour(s: string) {
    |s| == 7 && s[0] == '#' && forall i :: 1 <= i < 7 ==> IsHexDigit(s[i])
  }

  /** Reads "#rrggbb" back into its three channels; the partner of `RgbToHex`. */
  function ParseHexColour(s: string): Option<(int, int, int)> {
    if IsHexColour(s) then
      Some((FromBase(s[1..3], 16), FromBase(s[3..5], 16), FromBase(s[5..7], 16)))
    else
      None
  }

  /** `_rgb_to_hex`: "#%02x%02x%02x" of the first three components, or black. */
  function RgbToHex(color: seq<int>): (r: string)
    ensures |color| < 3 ==> r == "#000000"
    ensures IsRgb(color) ==> IsHexColour(r) && ParseHexColour(r) == Some((color[0], color[1], color[2]))
  {
    if |color| >= 3 then
      var r := "#" + Hex02(color[0]) + Hex02(color[1]) + Hex02(color[2]);
      if IsRgb(color) then
        assert r[1..3] == Hex02(color[0]);
        assert r[3..5] == Hex02(color[1]);
        assert r[5..7] == Hex02(color[2]);
        r
      else
        r
    else
      "#000000"
  }

  /** A fourth (alpha) component, or any further one, does not change the encoding. */
  lemma AlphaIgnored(color: seq<int>, extra: seq<int>)
    requires |color| == 3
    ensures RgbToHex(color + extra) == RgbToHex(color)
  {
    assert (color + extra)[0] == color[0];
    assert (color + extra)[1] == color[1];
    assert (color + extra)[2] == color[2];
  }

  /** Distinct in-range colours get distinct strings. */
  lemma RgbToHexInjective(a: seq<int>, b: seq<int>)
    requires IsRgb(a) && IsRgb(b)
    requires RgbToHex(a) == RgbToHex(b)
    ensures a[0] == b[0] && a[1] == b[1] && a[2] == b[2]
  {
    var h := RgbToHex(a);
    assert ParseHexColour(h) == Some((a[0], a[1], a[2]));
    assert ParseHexColour(h) == Some((b[0], b[1], b[2]));
  }

  /** White, as `clear` uses it by default. */
  lemma WhiteIsFfffff()
    ensures RgbToHex([255, 255, 255]) == "#ffffff"
  {
    assert ToBase(15, 16) == "f";
    assert ToBase(255, 16) == "ff";
    assert Hex02(255) == "ff";
  }

  /** Alpha is ignored even when it differs. */
  lemma RedWithAlpha()
    ensures RgbToHex([255, 0, 0, 17]) == "#ff0000"
  {
    assert ToBase(15, 16) == "f";
    assert ToBase(255, 16) == "ff";
    assert Hex02(255) == "ff";
    assert ToBase(0, 16) == "0";
    assert Hex02(0) == "00";
  }

  /** Black, the default pen colour. */
  lemma BlackIs000000()
    ensures RgbToHex([0, 0, 0]) == "#000000"
  {
    assert ToBase(0, 16) == "0";
    assert Hex02(0) == "00";
  }
}

=== FILE: fungraphics.dfy ===
/**
 * The FunGraphics drawing façade as an immutable state plus one pure
 * transition per public method. The state holds the pen, the active layer,
 * the closed-window flag, the three listener lists and the canvas log.
 *
 * Both copies of the library (the single file and the package module) are
 * covered; they differ only in `getStringSize`, which the single file guards
 * with the closed-window flag and the package does not (`Variant`).
 */
module FunGraphics {
  import opened Wrappers
  import opened Numerals
  import opened Colour
  import opened Canvas
  import opened Outline
  import opened Listeners
  import opened Bitmap

  datatype Variant = SingleFile | Package

  datatype Layer = Background | Foreground

  datatype Pen = Pen(color: string, lineWidth: int, fontName: string, fontSize: int)

  datatype Graphics = Graphics(
    width: int, height: int, title: string, geometry: string,
    surface: Surface, pen: Pen, layer: Layer, closed: bool,
    keyListeners: seq<Listener>, mouseListeners: seq<Listener>, motionListeners: seq<Listener>)
  {
    predicate Valid() {
      surface.Valid()
    }
  }

  const AlignLeft: string := "left"
  const AlignCenter: string := "center"
  const AlignRight: string := "right"
  const AlignTop: string := "top"
  const AlignBottom: string := "bottom"

  const White: seq<int> := [255, 255, 255]
  const OutlineColour: string := "#FFFFFF"
  const ShadowColour: string := "#808080"
  const DefaultPen: Pen := Pen("#000000", 1, "Arial", 20)

  // ---------------------------------------------------------------------
  // Construction
  // ---------------------------------------------------------------------

  /**
   * The window geometry string: "WxH+X+Y" when both offsets are
   * non-negative, "WxH" (the window manager places the window) otherwise.
   */
  function Geometry(width: int, height: int, xoffset: int, yoffset: int): (r: string)
    ensures '+' in r <==> xoffset >= 0 && yoffset >= 0
    ensures var size := DecimalString(width) + "x" + DecimalString(height);
            var offsets := DecimalString(xoffset) + "+" + DecimalString(yoffset);
            && (xoffset >= 0 && yoffset >= 0 ==> r == size + ("+" + offsets))
            && (!(xoffset >= 0 && yoffset >= 0) ==> r == size)
  {
    var size := DecimalString(width) + "x" + DecimalString(height);
    assert '+' !in size by {
      forall i | 0 <= i < |size| ensures size[i] != '+' {
        if i < |DecimalString(width)| {
        } else if i > |DecimalString(width)| {
          assert size[i] == DecimalString(height)[i - |DecimalString(width)| - 1];
        }
      }
    }
    if xoffset >= 0 && yoffset >= 0 then
      var r := size + ("+" + (DecimalString(xoffset) + "+" + DecimalString(yoffset)));
      assert r[|size|] == '+';
      r
    else
      size
  }

  /** The position of the first `c` in `s`, or `|s|` when there is none. */
  function Find(s: string, c: char): (k: nat)
    ensures k <= |s|
    ensures k < |s| ==> s[k] == c
    ensures forall i :: 0 <= i < k ==> s[i] != c
    decreases |s|
  {
    if s == [] then 0 else if s[0] == c then 0 else 1 + Find(s[1..], c)
  }

  lemma {:induction false} FindAfter(a: string, b: string, c: char)
    requires c !in a
    ensures Find(a + b, c) == |a| + Find(b, c)
    decreases |a|
  {
    if a != [] {
      assert (a + b)[0] == a[0] && (a + b)[1..] == a[1..] + b;
      FindAfter(a[1..], b, c);
    } else {
      assert a + b == b;
    }
  }

  lemma DecimalHasNo(v: int, c: char)
    requires c == 'x' || c == '+'
    ensures c !in DecimalString(v)
  {
  }

  /** Reads the number in front of the first `sep` and returns it with what follows `sep`. */
  function ReadPair(s: string, sep: char): Option<(int, string)> {
    var i := Find(s, sep);
    if i == |s| then None
    else match ReadInt(s[..i])
      case Some(v) => Some((v, s[i + 1..]))
      case None => None
  }

  /** Reads the "X+Y" tail of a geometry string. */
  function ParseOffsets(s: string): Option<(int, int)> {
    match ReadPair(s, '+')
    case None => None
    case Some((xo, rest)) =>
      match ReadInt(rest)
      case Some(yo) => Some((xo, yo))
      case None => None
  }

  /** Reads the "H" or "H+X+Y" that follows the 'x' of a geometry string. */
  function ParseHeight(s: string): Option<(int, Option<(int, int)>)> {
    var j := Find(s, '+');
    match ReadInt(s[..j])
    case None => None
    case Some(h) =>
      if j == |s| then Some((h, None))
      else match ParseOffsets(s[j + 1..])
        case Some(offsets) => Some((h, Some(offsets)))
        case None => None
  }

  /**
   * Reads a geometry string back: width and height around the first 'x',
   * then the two offsets when a '+' follows.
   */
  function ParseGeometry(s: string): Option<(int, int, Option<(int, int)>)> {
    match ReadPair(s, 'x')
    case None => None
    case Some((w, rest)) =>
      match ParseHeight(rest)
      case None => None
      case Some((h, offsets)) => Some((w, h, offsets))
  }

  lemma ReadPairOf(v: int, sep: char, tail: string)
    requires sep == 'x' || sep == '+'
    ensures ReadPair(DecimalString(v) + [sep] + tail, sep) == Some((v, tail))
  {
    var d := DecimalString(v);
    var s := d + [sep] + tail;
    DecimalHasNo(v, sep);
    FindAfter(d, [sep] + tail, sep);
    assert s == d + ([sep] + tail);
    assert s[..|d|] == d;
    assert s[|d| + 1..] == tail;
    ReadDecimalString(v);
  }

  lemma OffsetsRoundTrip(xoffset: int, yoffset: int)
    ensures ParseOffsets(DecimalString(xoffset) + "+" + DecimalString(yoffset)) == Some((xoffset, yoffset))
  {
    ReadPairOf(xoffset, '+', DecimalString(yoffset));
    ReadDecimalString(yoffset);
  }

  /**
   * The geometry string carries exactly the window size and, when both are
   * non-negative, the two offsets.
   */
  lemma GeometryRoundTrip(width: int, height: int, xoffset: int, yoffset: int)
    ensures ParseGeometry(Geometry(width, height, xoffset, yoffset))
            == Some((width, height, if xoffset >= 0 && yoffset >= 0 then Some((xoffset, yoffset)) else None))
  {
    if xoffset >= 0 && yoffset >= 0 {
      PlacedRoundTrip(width, height, xoffset, yoffset);
    } else {
      UnplacedRoundTrip(width, height, xoffset, yoffset);
    }
  }

  lemma PlacedRoundTrip(width: int, height: int, xoffset: int, yoffset: int)
    requires xoffset >= 0 && yoffset >= 0
    ensures ParseGeometry(Geometry(width, height, xoffset, yoffset)) == Some((width, height, Some((xoffset, yoffset))))
  {
    var offsets := DecimalString(xoffset) + "+" + DecimalString(yoffset);
    SizeRoundTrip(width, height, "+" + offsets);
    OffsetsRoundTrip(xoffset, yoffset);
  }

  lemma UnplacedRoundTrip(width: int, height: int, xoffset: int, yoffset: int)
    requires !(xoffset >= 0 && yoffset >= 0)
    ensures ParseGeometry(Geometry(width, height, xoffset, yoffset)) == Some((width, height, None))
  {
    SizeRoundTrip(width, height, "");
    assert DecimalString(width) + "x" + DecimalString(height) + "" == DecimalString(width) + "x" + DecimalString(height);
  }

  /** The size part of a geometry string, followed by `tail` that is empty or starts with '+'. */
  lemma SizeRoundTrip(width: int, height: int, tail: string)
    requires tail == [] || tail[0] == '+'
    ensures ParseGeometry(DecimalString(width) + "x" + DecimalString(height) + tail)
            == if tail == [] then Some((width, height, None))
               else match ParseOffsets(tail[1..])
                 case Some(offsets) => Some((width, height, Some(offsets)))
                 case None => None
  {
    var w, h := DecimalString(width), DecimalString(height);
    assert w + "x" + h + tail == w + "x" + (h + tail);
    ReadPairOf(width, 'x', h + tail);
    HeightRoundTrip(height, tail);
  }

  lemma HeightRoundTrip(height: int, tail: string)
    requires tail == [] || tail[0] == '+'
    ensures ParseHeight(DecimalString(height) + tail)
            == if tail == [] then Some((height, None))
               else match ParseOffsets(tail[1..])
                 case Some(offsets) => Some((height, Some(offsets)))
                 case None => None
  {
    if tail == [] {
      HeightAlone(height);
      assert DecimalString(height) + tail == DecimalString(height);
    } else {
      HeightThenOffsets(height, tail);
    }
  }

  lemma HeightAlone(height: int)
    ensures ParseHeight(DecimalString(height)) == Some((height, None))
  {
    HeightPrefix(height, []);
    var h := DecimalString(height);
    assert h + [] == h;
    assert Find(h, '+') == |h|;
    assert ReadInt(h[..|h|]) == Some(height);
  }

  lemma HeightThenOffsets(height: int, tail: string)
    requires tail != [] && tail[0] == '+'
    ensures ParseHeight(DecimalString(height) + tail)
            == match ParseOffsets(tail[1..])
               case Some(offsets) => Some((height, Some(offsets)))
               case None => None
  {
    HeightPrefix(height, tail);
    var rest := DecimalString(height) + tail;
    var j := |DecimalString(height)|;
    assert rest[j + 1..] == tail[1..];
    HeightAt(rest, j, height);
  }

  /** With the first '+' at `j` and a readable height before it, the offsets follow it. */
  lemma HeightAt(s: string, j: nat, height: int)
    requires j < |s| && Find(s, '+') == j && ReadInt(s[..j]) == Some(height)
    ensures ParseHeight(s)
            == match ParseOffsets(s[j + 1..])
               case Some(offsets) => Some((height, Some(offsets)))
               case None => None
  {
  }

  /** The height is read up to the first '+', which is where `tail` starts. */
  lemma HeightPrefix(height: int, tail: string)
    ensures var rest := DecimalString(height) + tail;
            var j := |DecimalString(height)|;
            && (tail == [] || tail[0] == '+' ==> Find(rest, '+') == j)
            && rest[..j] == DecimalString(height)
            && ReadInt(rest[..j]) == Some(height)
  {
    var h := DecimalString(height);
    DecimalHasNo(height, '+');
    FindAfter(h, tail, '+');
    assert (h + tail)[..|h|] == h;
    ReadDecimalString(height);
  }

  /** The window the hangman game opens: no offsets given. */
  lemma HangmanGeometry()
    ensures Geometry(300, 300, -1, -1) == "300x300"
  {
    assert ToBase(3, 10) == "3";
    assert ToBase(30, 10) == "30";
    assert ToBase(300, 10) == "300";
  }

  /**
   * `FunGraphics(width, height, xoffset, yoffset, title)`: default pen, the
   * foreground layer, no listeners, and a canvas cleared to white.
   */
  function New(width: int, height: int, xoffset: int, yoffset: int, title: string): (g: Graphics)
    ensures g.Valid() && !g.closed
    ensures g.surface.items == [] && g.surface.background == "#ffffff"
    ensures g.pen == DefaultPen && g.layer == Foreground
    ensures g.keyListeners == [] && g.mouseListeners == [] && g.motionListeners == []
    ensures g.geometry == Geometry(width, height, xoffset, yoffset)
    ensures g.width == width && g.height == height && g.title == title
  {
    WhiteIsFfffff();
    var g := Graphics(width, height, title, Geometry(width, height, xoffset, yoffset),
                      Surface([], 1, ""), DefaultPen, Foreground, false, [], [], []);
    Clear(g, White)
  }

  // ---------------------------------------------------------------------
  // Frame conditions
  // ---------------------------------------------------------------------

  /** `r` is `g` with `shapes` drawn on top and nothing else changed. */
  predicate Appended(g: Graphics, r: Graphics, shapes: seq<Shape>) {
    && r == g.(surface := r.surface)
    && r.surface.background == g.surface.background
    && Shapes(r.surface.items) == Shapes(g.surface.items) + shapes
  }

  /** A guarded drawing call: no-op on a closed window, else exactly `shapes` appended. */
  predicate Draws(g: Graphics, r: Graphics, shapes: seq<Shape>) {
    && (g.closed ==> r == g)
    && (!g.closed ==> Appended(g, r, shapes))
    && (g.Valid() ==> r.Valid())
  }

  function Draw(g: Graphics, shapes: seq<Shape>): (r: Graphics)
    ensures Draws(g, r, shapes)
  {
    if g.closed then g else g.(surface := CreateAll(g.surface, shapes))
  }

  // ---------------------------------------------------------------------
  // Canvas and pen state
  // ---------------------------------------------------------------------

  /** `clear(color)`: on an open window, wipe every item and set the background. */
  function Clear(g: Graphics, color: seq<int>): (r: Graphics)
    ensures g.closed ==> r == g
    ensures !g.closed ==> && r.surface.items == []
                          && r.surface.background == RgbToHex(color)
                          && r == g.(surface := r.surface)
    ensures g.Valid() ==> r.Valid()
  {
    if g.closed then g else g.(surface := g.surface.(items := [], background := RgbToHex(color)))
  }

  /** `setColor(color)`: stores the colour's encoding, even on a closed window. */
  function SetColor(g: Graphics, color: seq<int>): (r: Graphics)
    ensures r.pen.color == RgbToHex(color)
    ensures r.pen.(color := g.pen.color) == g.pen
    ensures r.(pen := g.pen) == g
  {
    g.(pen := g.pen.(color := RgbToHex(color)))
  }

  /** Python's `int(w)` on a number: truncation toward zero. */
  function Truncate(w: real): (n: int)
    ensures w >= 0.0 ==> 0 <= n && n as real <= w < n as real + 1.0
    ensures w < 0.0 ==> n <= 0 && n as real - 1.0 < w <= n as real
  {
    if w >= 0.0 then w.Floor else -((-w).Floor)
  }

  /** `setPenWidth(width)`: stores `int(width)`; no validation. */
  function SetPenWidth(g: Graphics, width: real): (r: Graphics)
    ensures r.pen.lineWidth == Truncate(width)
    ensures r.pen.(lineWidth := g.pen.lineWidth) == g.pen
    ensures r.(pen := g.pen) == g
  {
    g.(pen := g.pen.(lineWidth := Truncate(width)))
  }

  /** `self.color if color is None else self._rgb_to_hex(color)`. */
  function Fill(g: Graphics, color: Option<seq<int>>): (c: string)
    ensures color.None? ==> c == g.pen.color
    ensures color.Some? ==> c == RgbToHex(color.value)
  {
    match color
    case None => g.pen.color
    case Some(rgb) => RgbToHex(rgb)
  }

  // ---------------------------------------------------------------------
  // Shapes
  // ---------------------------------------------------------------------

  /** `setPixel`: a 1×1 filled rectangle without outline. */
  function SetPixel(g: Graphics, x: int, y: int, color: Option<seq<int>>): (r: Graphics)
    ensures Draws(g, r, [Rectangle([x, y, x + 1, y + 1], Paint(Some(Fill(g, color)), Some(""), None))])
  {
    Draw(g, [Rectangle([x, y, x + 1, y + 1], Paint(Some(Fill(g, color)), Some(""), None))])
  }

  /** `drawLine`: pen colour and pen width. */
  function DrawLine(g: Graphics, x1: int, y1: int, x2: int, y2: int): (r: Graphics)
    ensures Draws(g, r, [Line([x1, y1, x2, y2], Paint(Some(g.pen.color), None, Some(g.pen.lineWidth)))])
  {
    Draw(g, [Line([x1, y1, x2, y2], Paint(Some(g.pen.color), None, Some(g.pen.lineWidth)))])
  }

  /** `drawRect`: outline only, from (x, y) to (x + w, y + h). */
  function DrawRect(g: Graphics, x: int, y: int, w: int, h: int): (r: Graphics)
    ensures Draws(g, r, [Rectangle([x, y, x + w, y + h], Paint(None, Some(g.pen.color), Some(g.pen.lineWidth)))])
  {
    Draw(g, [Rectangle([x, y, x + w, y + h], Paint(None, Some(g.pen.color), Some(g.pen.lineWidth)))])
  }

  /** `drawFillRect`: filled with the pen colour, no outline. */
  function DrawFillRect(g: Graphics, x: int, y: int, w: int, h: int): (r: Graphics)
    ensures Draws(g, r, [Rectangle([x, y, x + w, y + h], Paint(Some(g.pen.color), Some(""), None))])
  {
    Draw(g, [Rectangle([x, y, x + w, y + h], Paint(Some(g.pen.color), Some(""), None))])
  }

  /** `drawCircle`: the oval in the d×d box at (x, y), outline only. */
  function DrawCircle(g: Graphics, x: int, y: int, d: int): (r: Graphics)
    ensures Draws(g, r, [Oval([x, y, x + d, y + d], Paint(None, Some(g.pen.color), Some(g.pen.lineWidth)))])
  {
    Draw(g, [Oval([x, y, x + d, y + d], Paint(None, Some(g.pen.color), Some(g.pen.lineWidth)))])
  }

  /** `drawFilledCircle`: filled, no outline. */
  function DrawFilledCircle(g: Graphics, x: int, y: int, d: int): (r: Graphics)
    ensures Draws(g, r, [Oval([x, y, x + d, y + d], Paint(Some(g.pen.color), Some(""), None))])
  {
    Draw(g, [Oval([x, y, x + d, y + d], Paint(Some(g.pen.color), Some(""), None))])
  }

  /** `drawFilledOval`: filled, no outline, in the w×h box at (x, y). */
  function DrawFilledOval(g: Graphics, x: int, y: int, w: int, h: int): (r: Graphics)
    ensures Draws(g, r, [Oval([x, y, x + w, y + h], Paint(Some(g.pen.color), Some(""), None))])
  {
    Draw(g, [Oval([x, y, x + w, y + h], Paint(Some(g.pen.color), Some(""), None))])
  }

  /** `[coord for point in points for coord in point]` for (x, y) points. */
  function Flatten(points: seq<(int, int)>): (r: seq<int>)
    decreases |points|
    ensures |r| == 2 * |points|
    ensures forall i :: 0 <= i < |points| ==> r[2 * i] == points[i].0 && r[2 * i + 1] == points[i].1
  {
    if points == [] then
      []
    else
      var rest := Flatten(points[1..]);
      var r := [points[0].0, points[0].1] + rest;
      assert forall i :: 1 <= i < |points| ==> r[2 * i] == rest[2 * (i - 1)] && r[2 * i + 1] == rest[2 * (i - 1) + 1];
      r
  }

  /** Fewer than three points draw nothing; otherwise one polygon of the flattened points. */
  function DrawPolygon(g: Graphics, points: seq<(int, int)>): (r: Graphics)
    ensures |points| < 3 ==> r == g
    ensures |points| >= 3 ==>
      Draws(g, r, [Polygon(Flatten(points), Paint(Some(""), Some(g.pen.color), Some(g.pen.lineWidth)))])
  {
    if g.closed || |points| < 3 then g
    else Draw(g, [Polygon(Flatten(points), Paint(Some(""), Some(g.pen.color), Some(g.pen.lineWidth)))])
  }

  /** As `DrawPolygon`, filled and outlined in one colour: the override, else the pen's. */
  function DrawFilledPolygon(g: Graphics, points: seq<(int, int)>, color: Option<seq<int>>): (r: Graphics)
    ensures |points| < 3 ==> r == g
    ensures |points| >= 3 ==>
      Draws(g, r, [Polygon(Flatten(points), Paint(Some(Fill(g, color)), Some(Fill(g, color)), None))])
  {
    if g.closed || |points| < 3 then g
    else
      var c := Fill(g, color);
      Draw(g, [Polygon(Flatten(points), Paint(Some(c), Some(c), None))])
  }

  // ---------------------------------------------------------------------
  // Text
  // ---------------------------------------------------------------------

  function FontOf(g: Graphics, size: int): Font {
    Font(g.pen.fontName, size)
  }

  /** `drawString`: text anchored at its top-left corner ("nw"). */
  function DrawString(g: Graphics, x: int, y: int, text: string, fontSize: int, color: Option<seq<int>>): (r: Graphics)
    ensures Draws(g, r, [Text(x, y, text, Some(Fill(g, color)), FontOf(g, fontSize), "nw")])
  {
    Draw(g, [Text(x, y, text, Some(Fill(g, color)), FontOf(g, fontSize), "nw")])
  }

  /** A text extent as the toolkit's `bbox` reports it. */
  datatype Box = Box(x1: int, y1: int, x2: int, y2: int)

  datatype Measurement = Measurement(width: int, height: int, after: Graphics)

  /** The invisible item `getStringSize` creates to measure `text`. */
  function Probe(g: Graphics, text: string, fontSize: Option<int>): Shape {
    Text(0, 0, text, None, FontOf(g, fontSize.GetOr(g.pen.fontSize)), "nw")
  }

  /**
   * `getStringSize(text, font_size)`: create a probe item, read its bounding
   * box, delete it. The toolkit's `bbox` is the parameter `bbox`. The single
   * file answers (0, 0) on a closed window without touching anything; the
   * package has no such guard and measures anyway.
   */
  function GetStringSize(v: Variant, g: Graphics, text: string, fontSize: Option<int>,
                         bbox: Shape -> Option<Box>): (m: Measurement)
    ensures v == SingleFile && g.closed ==> m == Measurement(0, 0, g)
    ensures !(v == SingleFile && g.closed) ==>
      && m.after == g.(surface := m.after.surface)
      && m.after.surface.nextId == g.surface.nextId + 1
      && m.after.surface.background == g.surface.background
      && (g.Valid() ==> m.after.Valid() && m.after.surface.items == g.surface.items)
      && (bbox(Probe(g, text, fontSize)).None? ==> m.width == 0 && m.height == 0)
      && (bbox(Probe(g, text, fontSize)).Some? ==>
            var b := bbox(Probe(g, text, fontSize)).value;
            m.width == b.x2 - b.x1 && m.height == b.y2 - b.y1)
  {
    if v == SingleFile && g.closed then
      Measurement(0, 0, g)
    else
      var probe := Probe(g, text, fontSize);
      var after := g.(surface := Delete(Create(g.surface, probe), g.surface.nextId));
      var size := match bbox(probe)
                  case None => (0, 0)
                  case Some(b) => (b.x2 - b.x1, b.y2 - b.y1);
      if g.Valid() then
        CreateThenDelete(g.surface, probe);
        Measurement(size.0, size.1, after)
      else
        Measurement(size.0, size.1, after)
  }

  /** The two copies agree on an open window and differ only once it is closed. */
  lemma VariantsAgreeWhileOpen(g: Graphics, text: string, fontSize: Option<int>, bbox: Shape -> Option<Box>)
    requires !g.closed
    ensures GetStringSize(SingleFile, g, text, fontSize, bbox) == GetStringSize(Package, g, text, fontSize, bbox)
  {
  }

  /** Alignment pairs and the toolkit anchor each one selects. */
  const AnchorMap: map<(string, string), string> := map[
    (AlignLeft, AlignTop) := "nw",
    (AlignLeft, AlignCenter) := "w",
    (AlignLeft, AlignBottom) := "sw",
    (AlignCenter, AlignTop) := "n",
    (AlignCenter, AlignCenter) := "center",
    (AlignCenter, AlignBottom) := "s",
    (AlignRight, AlignTop) := "ne",
    (AlignRight, AlignCenter) := "e",
    (AlignRight, AlignBottom) := "se"]

  predicate IsHAlign(h: string) {
    h == AlignLeft || h == AlignCenter || h == AlignRight
  }

  predicate IsVAlign(v: string) {
    v == AlignTop || v == AlignCenter || v == AlignBottom
  }

  /** `anchor_map.get((halign, valign), "nw")`. */
  function AnchorFor(halign: string, valign: string): (a: string)
    ensures !(IsHAlign(halign) && IsVAlign(valign)) ==> a == "nw"
  {
    if (halign, valign) in AnchorMap then AnchorMap[(halign, valign)] else "nw"
  }

  /**
   * The toolkit's compass naming, independent of the table: a vertical part
   * ("n", "s" or none) followed by a horizontal part ("w", "e" or none), and
   * "center" when both are none.
   */
  function CompassAnchor(halign: string, valign: string): string {
    var ns := if valign == AlignTop then "n" else if valign == AlignBottom then "s" else "";
    var we := if halign == AlignLeft then "w" else if halign == AlignRight then "e" else "";
    if ns + we == "" then "center" else ns + we
  }

  /** Reads an anchor back into the alignment pair that selects it; the inverse of the table. */
  function AlignmentOf(anchor: string): Option<(string, string)> {
    if anchor == "nw" then Some((AlignLeft, AlignTop))
    else if anchor == "w" then Some((AlignLeft, AlignCenter))
    else if anchor == "sw" then Some((AlignLeft, AlignBottom))
    else if anchor == "n" then Some((AlignCenter, AlignTop))
    else if anchor == "center" then Some((AlignCenter, AlignCenter))
    else if anchor == "s" then Some((AlignCenter, AlignBottom))
    else if anchor == "ne" then Some((AlignRight, AlignTop))
    else if anchor == "e" then Some((AlignRight, AlignCenter))
    else if anchor == "se" then Some((AlignRight, AlignBottom))
    else None
  }

  /**
   * Each of the nine alignment pairs selects the compass anchor it names,
   * and the anchor determines the pair.
   */
  lemma AnchorTable(h: string, v: string)
    requires IsHAlign(h) && IsVAlign(v)
    ensures AnchorFor(h, v) == CompassAnchor(h, v)
    ensures AlignmentOf(AnchorFor(h, v)) == Some((h, v))
  {
    if h == AlignLeft {
      if v == AlignTop {
        assert AnchorFor(h, v) == "nw";
      } else if v == AlignCenter {
        assert AnchorFor(h, v) == "w";
      } else {
        assert AnchorFor(h, v) == "sw";
      }
    } else if h == AlignCenter {
      if v == AlignTop {
        assert AnchorFor(h, v) == "n";
      } else if v == AlignCenter {
        assert AnchorFor(h, v) == "center";
      } else {
        assert AnchorFor(h, v) == "s";
      }
    } else {
      if v == AlignTop {
        assert AnchorFor(h, v) == "ne";
      } else if v == AlignCenter {
        assert AnchorFor(h, v) == "e";
      } else {
        assert AnchorFor(h, v) == "se";
      }
    }
  }

  /** The nine alignment pairs select nine distinct anchors. */
  lemma AnchorsDistinct(h1: string, v1: string, h2: string, v2: string)
    requires IsHAlign(h1) && IsVAlign(v1) && IsHAlign(h2) && IsVAlign(v2)
    requires (h1, v1) != (h2, v2)
    ensures AnchorFor(h1, v1) != AnchorFor(h2, v2)
  {
    AnchorTable(h1, v1);
    AnchorTable(h2, v2);
  }

  /** The default arguments (left, bottom) anchor at the bottom-left corner. */
  lemma DefaultAlignment()
    ensures AnchorFor(AlignLeft, AlignBottom) == "sw"
  {
  }

  /** `drawStringAligned`: one text item at the anchor the alignment selects. */
  function DrawStringAligned(g: Graphics, x: int, y: int, text: string, fontSize: int,
                             color: Option<seq<int>>, halign: string, valign: string): (r: Graphics)
    ensures Draws(g, r, [Text(x, y, text, Some(Fill(g, color)), FontOf(g, fontSize), AnchorFor(halign, valign))])
  {
    Draw(g, [Text(x, y, text, Some(Fill(g, color)), FontOf(g, fontSize), AnchorFor(halign, valign))])
  }

  /** The white outline stamps, one per ring offset, in loop order. */
  function OutlineStamps(x: int, y: int, text: string, font: Font, offsets: seq<(int, int)>): (r: seq<Shape>)
    ensures |r| == |offsets|
    ensures forall k :: 0 <= k < |offsets| ==>
      r[k] == Text(x + offsets[k].0, y + offsets[k].1, text, Some(OutlineColour), font, "nw")
  {
    seq(|offsets|, k requires 0 <= k < |offsets| =>
      Text(x + offsets[k].0, y + offsets[k].1, text, Some(OutlineColour), font, "nw"))
  }

  /**
   * The stamp plan of `drawFancyString`, bottom to top: the outline ring,
   * then (only for a positive offset) the grey shadow, then the main text.
   */
  function FancyStamps(x: int, y: int, text: string, font: Font, c: string,
                       shadowOffset: int, thickness: int): (r: seq<Shape>)
    ensures |r| == |Offsets(thickness)| + (if shadowOffset > 0 then 1 else 0) + 1
    ensures forall k :: 0 <= k < |Offsets(thickness)| ==>
      r[k] == Text(x + Offsets(thickness)[k].0, y + Offsets(thickness)[k].1, text, Some(OutlineColour), font, "nw")
    ensures shadowOffset > 0 ==>
      r[|r| - 2] == Text(x + shadowOffset, y + shadowOffset, text, Some(ShadowColour), font, "nw")
    ensures r[|r| - 1] == Text(x, y, text, Some(c), font, "nw")
  {
    var ring := OutlineStamps(x, y, text, font, Offsets(thickness));
    var shadow := if shadowOffset > 0
                  then [Text(x + shadowOffset, y + shadowOffset, text, Some(ShadowColour), font, "nw")]
                  else [];
    ring + shadow + [Text(x, y, text, Some(c), font, "nw")]
  }

  /** `drawFancyString`: the whole stamp plan, in order, on an open window. */
  function DrawFancyString(g: Graphics, x: int, y: int, text: string, fontSize: int, color: Option<seq<int>>,
                           shadowOffset: int, thickness: int): (r: Graphics)
    ensures Draws(g, r, FancyStamps(x, y, text, FontOf(g, fontSize), Fill(g, color), shadowOffset, thickness))
  {
    Draw(g, FancyStamps(x, y, text, FontOf(g, fontSize), Fill(g, color), shadowOffset, thickness))
  }

  /** With thickness t > 0 the plan starts with (2t+1)² − 1 outline stamps. */
  lemma FancyCount(x: int, y: int, text: string, font: Font, c: string, shadowOffset: int, t: int)
    requires t > 0
    ensures |FancyStamps(x, y, text, font, c, shadowOffset, t)|
            == (2 * t + 1) * (2 * t + 1) - 1 + (if shadowOffset > 0 then 1 else 0) + 1
  {
    RingShape(t);
  }

  /** Every offset of [-t, t]² other than the centre gets a white stamp among the first ones. */
  lemma FancyRingCovers(x: int, y: int, text: string, font: Font, c: string, shadowOffset: int, t: int, dx: int, dy: int)
    requires t > 0 && InRing((dx, dy), t)
    ensures exists k :: (0 <= k < |Offsets(t)| &&
      FancyStamps(x, y, text, font, c, shadowOffset, t)[k] == Text(x + dx, y + dy, text, Some(OutlineColour), font, "nw"))
  {
    var k := RingIndex(t, (dx, dy));
    assert 0 <= k < |Offsets(t)| && FancyStamps(x, y, text, font, c, shadowOffset, t)[k] == Text(x + dx, y + dy, text, Some(OutlineColour), font, "nw");
  }

  /** The outline stamps are white, sit on the ring around (x, y), and no two coincide. */
  lemma FancyRingExact(x: int, y: int, text: string, font: Font, c: string, shadowOffset: int, t: int)
    requires t > 0
    ensures var r := FancyStamps(x, y, text, font, c, shadowOffset, t);
      && (forall k :: 0 <= k < |Offsets(t)| ==>
            r[k].Text? && r[k].fill == Some(OutlineColour) && InRing((r[k].x - x, r[k].y - y), t))
      && (forall i, j :: 0 <= i < j < |Offsets(t)| ==> r[i] != r[j])
  {
    FancyRingOnRing(x, y, text, font, c, shadowOffset, t);
    FancyRingNoRepeat(x, y, text, font, c, shadowOffset, t);
  }

  lemma FancyRingOnRing(x: int, y: int, text: string, font: Font, c: string, shadowOffset: int, t: int)
    requires t > 0
    ensures var r := FancyStamps(x, y, text, font, c, shadowOffset, t);
      forall k :: 0 <= k < |Offsets(t)| ==>
        r[k].Text? && r[k].fill == Some(OutlineColour) && InRing((r[k].x - x, r[k].y - y), t)
  {
    var r := FancyStamps(x, y, text, font, c, shadowOffset, t);
    var o := Offsets(t);
    RingEntries(t);
    forall k | 0 <= k < |o|
      ensures r[k].Text? && r[k].fill == Some(OutlineColour) && InRing((r[k].x - x, r[k].y - y), t)
    {
      assert (r[k].x - x, r[k].y - y) == o[k];
    }
  }

  lemma FancyRingNoRepeat(x: int, y: int, text: string, font: Font, c: string, shadowOffset: int, t: int)
    requires t > 0
    ensures var r := FancyStamps(x, y, text, font, c, shadowOffset, t);
      forall i, j :: 0 <= i < j < |Offsets(t)| ==> r[i] != r[j]
  {
    var r := FancyStamps(x, y, text, font, c, shadowOffset, t);
    var o := Offsets(t);
    RingDistinct(t);
    forall i, j | 0 <= i < j < |o|
      ensures r[i] != r[j]
    {
      RingStampAt(x, y, text, font, c, shadowOffset, t, i);
      RingStampAt(x, y, text, font, c, shadowOffset, t, j);
      assert o[i].0 != o[j].0 || o[i].1 != o[j].1;
      assert r[i].x != r[j].x || r[i].y != r[j].y;
    }
  }

  /** The stamp at ring index `k`. */
  lemma RingStampAt(x: int, y: int, text: string, font: Font, c: string, shadowOffset: int, t: int, k: int)
    requires 0 <= k < |Offsets(t)|
    ensures FancyStamps(x, y, text, font, c, shadowOffset, t)[k]
            == Text(x + Offsets(t)[k].0, y + Offsets(t)[k].1, text, Some(OutlineColour), font, "nw")
  {
  }

  /** Thickness 2 and shadow offset 3: 24 outline stamps, one shadow, one main text. */
  lemma FancyExample(x: int, y: int, text: string, font: Font, c: string)
    ensures var r := FancyStamps(x, y, text, font, c, 3, 2);
      && |r| == 26
      && r[24] == Text(x + 3, y + 3, text, Some(ShadowColour), font, "nw")
      && r[25] == Text(x, y, text, Some(c), font, "nw")
  {
    ThicknessTwo();
  }

  // ---------------------------------------------------------------------
  // Pictures
  // ---------------------------------------------------------------------

  /** `drawPicture`: a picture centred at (x, y); nothing when the bitmap failed to load. */
  function DrawPicture(g: Graphics, x: int, y: int, b: Bitmap): (r: Graphics)
    ensures b.image.None? ==> r == g
    ensures b.image.Some? ==> Draws(g, r, [Picture(x, y, b.image.value, "c")])
  {
    if b.image.None? then g else Draw(g, [Picture(x, y, b.image.value, "c")])
  }

  /**
   * `drawTransformedPicture` and `drawMirroredPicture`: `processed` is the
   * image the imaging library makes from the decoded picture (rotated, scaled
   * or mirrored). A bitmap the library does not hold falls back to
   * `drawPicture`.
   */
  function DrawProcessedPicture(g: Graphics, x: int, y: int, b: Bitmap, processed: Image): (r: Graphics)
    ensures b.image.None? ==> r == g
    ensures !b.decoded ==> r == DrawPicture(g, x, y, b)
    ensures b.image.Some? && b.decoded ==> Draws(g, r, [Picture(x, y, processed, "c")])
  {
    if g.closed || b.image.None? then g
    else if !b.decoded then DrawPicture(g, x, y, b)
    else Draw(g, [Picture(x, y, processed, "c")])
  }

  /** The package's bitmaps are never decoded, so its transforms only ever redraw the original. */
  lemma PackageTransformsFallBack(g: Graphics, x: int, y: int, path: string,
                                  load: string -> Option<Image>, processed: Image)
    ensures DrawProcessedPicture(g, x, y, Load(path, load), processed) == DrawPicture(g, x, y, Load(path, load))
  {
  }

  /** The single file's loaded bitmaps are decoded, so its transforms draw the processed image. */
  lemma StandaloneTransformsApply(g: Graphics, x: int, y: int, path: string,
                                  load: string -> Option<Image>, processed: Image)
    requires load(path).Some?
    ensures Draws(g, DrawProcessedPicture(g, x, y, LoadStandalone(path, load), processed),
                  [Picture(x, y, processed, "c")])
  {
  }

  // ---------------------------------------------------------------------
  // Layers and listeners
  // ---------------------------------------------------------------------

  /** `drawBackground`: only the layer flag changes. */
  function DrawBackground(g: Graphics): (r: Graphics)
    ensures r.layer == Background && r.(layer := g.layer) == g
  {
    g.(layer := Background)
  }

  /** `drawForeground`: only the layer flag changes. */
  function DrawForeground(g: Graphics): (r: Graphics)
    ensures r.layer == Foreground && r.(layer := g.layer) == g
  {
    g.(layer := Foreground)
  }

  /** `setKeyManager`: appends to the key listeners only. */
  function SetKeyManager(g: Graphics, l: Listener): (r: Graphics)
    ensures |r.keyListeners| == |g.keyListeners| + 1 && r.keyListeners[|g.keyListeners|] == l
    ensures r.keyListeners[..|g.keyListeners|] == g.keyListeners
    ensures r.(keyListeners := g.keyListeners) == g
  {
    g.(keyListeners := Register(g.keyListeners, l))
  }

  /** `addMouseListener`: appends to the mouse listeners only. */
  function AddMouseListener(g: Graphics, l: Listener): (r: Graphics)
    ensures |r.mouseListeners| == |g.mouseListeners| + 1 && r.mouseListeners[|g.mouseListeners|] == l
    ensures r.mouseListeners[..|g.mouseListeners|] == g.mouseListeners
    ensures r.(mouseListeners := g.mouseListeners) == g
  {
    g.(mouseListeners := Register(g.mouseListeners, l))
  }

  /** `addMouseMotionListener`: appends to the motion listeners only. */
  function AddMouseMotionListener(g: Graphics, l: Listener): (r: Graphics)
    ensures |r.motionListeners| == |g.motionListeners| + 1 && r.motionListeners[|g.motionListeners|] == l
    ensures r.motionListeners[..|g.motionListeners|] == g.motionListeners
    ensures r.(motionListeners := g.motionListeners) == g
  {
    g.(motionListeners := Register(g.motionListeners, l))
  }

  /** `_on_key_press`: `keyPressed(event)` on every key listener defining it, in order. */
  method OnKeyPress(g: Graphics, keysym: string) returns (calls: seq<Invocation>)
    ensures Delivers(g.keyListeners, KeyPressed, KeyEvent(keysym), calls)
  {
    calls := Dispatch(g.keyListeners, KeyPressed, KeyEvent(keysym));
  }

  /** `_on_key_release`: `keyReleased(event)` on every key listener defining it, in order. */
  method OnKeyRelease(g: Graphics, keysym: string) returns (calls: seq<Invocation>)
    ensures Delivers(g.keyListeners, KeyReleased, KeyEvent(keysym), calls)
  {
    calls := Dispatch(g.keyListeners, KeyReleased, KeyEvent(keysym));
  }

  /** `_on_mouse_click`: `mouseClicked(event)` with position and button number. */
  method OnMouseClick(g: Graphics, x: int, y: int, button: int) returns (calls: seq<Invocation>)
    ensures Delivers(g.mouseListeners, MouseClicked, ClickEvent(x, y, button), calls)
  {
    calls := Dispatch(g.mouseListeners, MouseClicked, ClickEvent(x, y, button));
  }

  /** `_on_mouse_motion`: `mouseMoved(event)` with the mouse position. */
  method OnMouseMotion(g: Graphics, x: int, y: int) returns (calls: seq<Invocation>)
    ensures Delivers(g.motionListeners, MouseMoved, MotionEvent(x, y), calls)
  {
    calls := Dispatch(g.motionListeners, MouseMoved, MotionEvent(x, y));
  }

  // ---------------------------------------------------------------------
  // Window lifecycle
  // ---------------------------------------------------------------------

  /** What a lifecycle call leaves behind: the process exits, or drawing continues. */
  datatype Lifecycle = Exited(code: int, state: Graphics) | Continued(state: Graphics)

  /** `_on_window_close`: mark the window closed, then exit with status 0. */
  function OnWindowClose(g: Graphics): (o: Lifecycle)
    ensures o.Exited? && o.code == 0 && o.state.closed
    ensures o.state.(closed := g.closed) == g
  {
    Exited(0, g.(closed := true))
  }

  /**
   * `syncGameLogic` without its timing: exit (status 0) if the window is
   * already closed or the toolkit reports it gone, otherwise carry on
   * unchanged. `toolkitAlive` stands for the toolkit update neither failing
   * nor handling a close event: a close event pumped by that update runs
   * `_on_window_close`, whose own exit with status 0 is not caught here, so
   * it ends the same way as a failing update.
   */
  function SyncGameLogic(g: Graphics, toolkitAlive: bool): (o: Lifecycle)
    ensures o.Exited? <==> (g.closed || !toolkitAlive)
    ensures o.Exited? ==> o.code == 0 && o.state.closed && o.state.(closed := g.closed) == g
    ensures o.Continued? ==> o.state == g
  {
    if g.closed then Exited(0, g)
    else if !toolkitAlive then Exited(0, g.(closed := true))
    else Continued(g)
  }
}

=== FILE: hangman.dfy ===
/**
 * The hangman example game: a secret word masked with '*', letters revealed
 * as they are guessed, and a round that ends after eight misses or when the
 * word is complete. Dialog input is given as parameters; lower-casing is
 * ASCII only.
 */
module Hangman {
  import opened Wrappers
  import opened Canvas
  import opened Colour
  import F = FunGraphics

  const MaxSteps: nat := 8
  const Hidden: char := '*'

  /** ASCII `str.lower` on one character. */
  function Lower(c: char): (l: char)
    ensures 'A' <= c <= 'Z' ==> l as int == c as int + 32
    ensures !('A' <= c <= 'Z') ==> l == c
    ensures !('A' <= l <= 'Z')
  {
    if 'A' <= c <= 'Z' then (c as int + 32) as char else c
  }

  function LowerString(s: string): (r: string)
    ensures |r| == |s| && forall i :: 0 <= i < |s| ==> r[i] == Lower(s[i])
  {
    seq(|s|, i requires 0 <= i < |s| => Lower(s[i]))
  }

  datatype WordManager = WordManager(secret: string, user: string)

  /** Every position shows '*' or the secret letter there. */
  predicate Masks(wm: WordManager) {
    && |wm.user| == |wm.secret|
    && forall i :: 0 <= i < |wm.user| ==> wm.user[i] == Hidden || wm.user[i] == wm.secret[i]
  }

  /** `ask_secret_word`: the lower-cased input, shown as all stars. */
  function AskSecretWord(wm: WordManager, input: string): (r: WordManager)
    ensures r.secret == LowerString(input)
    ensures |r.user| == |input| && forall i :: 0 <= i < |r.user| ==> r.user[i] == Hidden
    ensures Masks(r)
  {
    var secret := LowerString(input);
    WordManager(secret, seq(|secret|, i => Hidden))
  }

  /** `is_word_complete`: no '*' left. */
  predicate IsWordComplete(wm: WordManager): (b: bool)
    ensures b <==> forall i :: 0 <= i < |wm.user| ==> wm.user[i] != Hidden
    ensures b && Masks(wm) ==> wm.user == wm.secret
  {
    Hidden !in wm.user
  }

  /**
   * The reveal loop of `check_letter` from position `i` on: every later
   * secret position holding `c` gets `c`; also whether any did.
   */
  function Reveal(secret: string, word: string, c: char, i: nat): (r: (bool, string))
    requires i <= |secret| <= |word|
    decreases |secret| - i
    ensures |r.1| == |word|
    ensures r.0 <==> exists j :: i <= j < |secret| && secret[j] == c
    ensures forall j :: 0 <= j < |word| ==>
      r.1[j] == (if i <= j < |secret| && secret[j] == c then c else word[j])
  {
    if i == |secret| then
      (false, word)
    else
      var here := secret[i] == c;
      var rest := Reveal(secret, if here then word[i := c] else word, c, i + 1);
      (here || rest.0, rest.1)
  }

  datatype Checked = Checked(isPart: bool, wm: WordManager)

  /**
   * `check_letter(c)`: the answer is whether the lower-cased letter occurs in
   * the secret; the user word gets that letter exactly where the secret has
   * it and is unchanged elsewhere. The secret must not be longer than the
   * user word (Python would fail on the index).
   */
  function CheckLetter(wm: WordManager, c: char): (r: Checked)
    requires |wm.secret| <= |wm.user|
    ensures r.isPart <==> Lower(c) in wm.secret
    ensures r.wm.secret == wm.secret && |r.wm.user| == |wm.user|
    ensures forall i :: 0 <= i < |wm.user| ==>
      r.wm.user[i] == (if i < |wm.secret| && wm.secret[i] == Lower(c) then Lower(c) else wm.user[i])
  {
    var (isPart, user) := Reveal(wm.secret, wm.user, Lower(c), 0);
    Checked(isPart, wm.(user := user))
  }

  /** Checking a letter keeps every position either hidden or correct. */
  lemma CheckLetterMasks(wm: WordManager, c: char)
    requires Masks(wm)
    ensures Masks(CheckLetter(wm, c).wm)
  {
  }

  /** Repeating a letter changes nothing more and gives the same answer. */
  lemma CheckLetterIdempotent(wm: WordManager, c: char)
    requires |wm.secret| <= |wm.user|
    ensures CheckLetter(CheckLetter(wm, c).wm, c) == CheckLetter(wm, c)
  {
    var once := CheckLetter(wm, c);
    var twice := CheckLetter(once.wm, c);
    assert twice.wm.user == once.wm.user;
  }

  /** Revealed letters stay revealed. */
  lemma CheckLetterMonotone(wm: WordManager, c: char, i: nat)
    requires Masks(wm) && i < |wm.user| && wm.user[i] == wm.secret[i]
    ensures CheckLetter(wm, c).wm.user[i] == wm.secret[i]
  {
  }

  /** For a secret without '*', the word is complete exactly when it is fully guessed. */
  lemma CompleteIffGuessed(wm: WordManager)
    requires Masks(wm) && Hidden !in wm.secret
    ensures IsWordComplete(wm) <==> wm.user == wm.secret
  {
    if IsWordComplete(wm) {
      forall i | 0 <= i < |wm.user| ensures wm.user[i] == wm.secret[i] {
        assert wm.user[i] in wm.user;
      }
    } else {
      var i :| 0 <= i < |wm.user| && wm.user[i] == Hidden;
      assert wm.secret[i] in wm.secret;
    }
  }

  /** A secret containing '*' (the dialog accepts any text) can never be completed. */
  lemma StarInSecretNeverCompletes(wm: WordManager)
    requires Masks(wm) && Hidden in wm.secret
    ensures !IsWordComplete(wm)
  {
    var i :| 0 <= i < |wm.secret| && wm.secret[i] == Hidden;
    assert wm.user[i] == Hidden;
  }

  /** Checking a sequence of letters in turn. */
  function CheckAll(wm: WordManager, letters: seq<char>): (r: WordManager)
    requires Masks(wm)
    decreases |letters|
    ensures Masks(r) && r.secret == wm.secret
  {
    if letters == [] then wm
    else
      CheckLetterMasks(wm, letters[0]);
      CheckAll(CheckLetter(wm, letters[0]).wm, letters[1..])
  }

  /** A position is revealed after guessing once it was revealed before or its letter was guessed. */
  lemma {:induction false} CheckAllReveals(wm: WordManager, letters: seq<char>, i: nat)
    requires Masks(wm) && i < |wm.user|
    requires wm.user[i] == wm.secret[i] || exists k :: 0 <= k < |letters| && Lower(letters[k]) == wm.secret[i]
    ensures CheckAll(wm, letters).user[i] == wm.secret[i]
    decreases |letters|
  {
    if letters != [] {
      var next := CheckLetter(wm, letters[0]).wm;
      CheckLetterMasks(wm, letters[0]);
      if Lower(letters[0]) == wm.secret[i] || wm.user[i] == wm.secret[i] {
        assert next.user[i] == wm.secret[i];
      } else {
        var k :| 0 <= k < |letters| && Lower(letters[k]) == wm.secret[i];
        assert k > 0;
        assert letters[1..][k - 1] == letters[k];
      }
      CheckAllReveals(next, letters[1..], i);
    }
  }

  /**
   * Guessing every letter of the secret (in any order, any case, with
   * repeats and misses in between) reveals the whole word.
   */
  lemma GuessingEveryLetterWins(wm: WordManager, letters: seq<char>)
    requires Masks(wm)
    requires forall i :: 0 <= i < |wm.secret| ==> exists k :: 0 <= k < |letters| && Lower(letters[k]) == wm.secret[i]
    ensures CheckAll(wm, letters).user == wm.secret
  {
    var r := CheckAll(wm, letters);
    forall i | 0 <= i < |wm.user|
      ensures r.user[i] == wm.secret[i]
    {
      CheckAllReveals(wm, letters, i);
    }
  }

  // ---------------------------------------------------------------------
  // The round loop of `play`
  // ---------------------------------------------------------------------

  /** `current_step`, `game_status` and the word manager during one round. */
  datatype Round = Round(step: nat, playing: bool, wm: WordManager)

  /** Start of a round: step 0, playing, a fresh secret from the dialog. */
  function StartRound(wm: WordManager, input: string): (r: Round)
    ensures r.step == 0 && r.playing && Masks(r.wm) && r.wm.secret == LowerString(input)
    ensures |input| > 0 ==> !IsWordComplete(r.wm)
  {
    var w := AskSecretWord(wm, input);
    assert |input| > 0 ==> w.user[0] == Hidden;
    Round(0, true, w)
  }

  /**
   * The start of each pass of `play`: the window is cleared to white, then
   * a round starts on the secret from the dialog. On an open window nothing
   * of the previous round's drawing is left.
   */
  function BeginRound(g: F.Graphics, wm: WordManager, input: string): (b: (Round, F.Graphics))
    ensures b.0.step == 0 && b.0.playing && Masks(b.0.wm) && b.0.wm.secret == LowerString(input)
    ensures g.closed ==> b.1 == g
    ensures !g.closed ==> b.1.surface.items == [] && b.1.surface.background == "#ffffff"
    ensures b.1.pen == g.pen && b.1.closed == g.closed
  {
    WhiteIsFfffff();
    (StartRound(wm, input), F.Clear(g, F.White))
  }

  /** The loop condition `current_step < MAX_STEPS and game_status`. */
  predicate InLoop(r: Round) {
    r.step < MaxSteps && r.playing
  }

  /**
   * One loop iteration with the dialog's letter: a hit leaves the step alone
   * and stops the round if the word is now complete; a miss costs one step
   * (never past the maximum).
   */
  function Guess(r: Round, c: char): (r': Round)
    requires |r.wm.secret| <= |r.wm.user|
    ensures r'.wm == CheckLetter(r.wm, c).wm
    ensures CheckLetter(r.wm, c).isPart ==>
      r'.step == r.step && (r'.playing <==> r.playing && !IsWordComplete(r'.wm))
    ensures !CheckLetter(r.wm, c).isPart ==>
      r'.playing == r.playing && r'.step == (if r.step < MaxSteps then r.step + 1 else r.step)
  {
    var checked := CheckLetter(r.wm, c);
    if checked.isPart then
      if IsWordComplete(checked.wm) then Round(r.step, false, checked.wm)
      else Round(r.step, r.playing, checked.wm)
    else
      Round(if r.step < MaxSteps then r.step + 1 else r.step, r.playing, checked.wm)
  }

  /**
   * What holds at every test of the loop condition: the step is bounded, the
   * mask invariant holds, a stopped round has a complete word found before
   * the last step, and (for a
   * non-empty secret) a round still playing does not.
   */
  predicate RoundInvariant(r: Round) {
    && Masks(r.wm)
    && r.step <= MaxSteps
    && (!r.playing ==> IsWordComplete(r.wm) && r.step < MaxSteps)
    && (r.playing && |r.wm.secret| > 0 ==> !IsWordComplete(r.wm))
  }

  lemma GuessKeepsInvariant(r: Round, c: char)
    requires RoundInvariant(r) && InLoop(r)
    ensures RoundInvariant(Guess(r, c))
    ensures Guess(r, c).wm.secret == r.wm.secret
  {
    CheckLetterMasks(r.wm, c);
    var checked := CheckLetter(r.wm, c);
    if !checked.isPart {
      assert checked.wm.user == r.wm.user;
    }
  }

  /** The loop, fed by the dialog letters; stops early when the condition fails. */
  function Play(r: Round, letters: seq<char>): (f: Round)
    requires RoundInvariant(r)
    decreases |letters|
    ensures RoundInvariant(f) && f.wm.secret == r.wm.secret
    ensures r.step <= f.step <= r.step + |letters|
  {
    if letters == [] || !InLoop(r) then r
    else
      GuessKeepsInvariant(r, letters[0]);
      Play(Guess(r, letters[0]), letters[1..])
  }

  /**
   * For a non-empty secret the loop is left exactly when the step reached
   * the maximum or the word is complete.
   */
  lemma LoopExitIff(r: Round)
    requires RoundInvariant(r) && |r.wm.secret| > 0
    ensures !InLoop(r) <==> r.step == MaxSteps || IsWordComplete(r.wm)
  {
  }

  /** The result line: "LOSER" after the last step, "YOU WON !" otherwise. */
  function Verdict(r: Round): (v: string)
    ensures v == "LOSER" <==> r.step == MaxSteps
    ensures r.step != MaxSteps ==> v == "YOU WON !"
  {
    if r.step == MaxSteps then "LOSER" else "YOU WON !"
  }

  /**
   * A finished round with a non-empty secret: it is lost exactly when the
   * step reached the maximum, and won exactly when the word is complete.
   */
  lemma VerdictOfFinishedRound(r: Round)
    requires RoundInvariant(r) && !InLoop(r) && |r.wm.secret| > 0
    ensures r.step == MaxSteps || IsWordComplete(r.wm)
    ensures Verdict(r) == "YOU WON !" <==> IsWordComplete(r.wm)
  {
  }

  /** With an empty secret (a cancelled dialog gives ""), every letter is a miss. */
  lemma {:induction false} EmptySecretLoses(r: Round, letters: seq<char>)
    requires RoundInvariant(r) && r.playing && r.wm.secret == []
    ensures Play(r, letters).step == if r.step + |letters| < MaxSteps then r.step + |letters| else MaxSteps
    decreases |letters|
  {
    if letters != [] && InLoop(r) {
      GuessKeepsInvariant(r, letters[0]);
      EmptySecretLoses(Guess(r, letters[0]), letters[1..]);
    }
  }

  // ---------------------------------------------------------------------
  // The view: `update_graphics_view` drawn through the façade
  // ---------------------------------------------------------------------

  const Black: seq<int> := [0, 0, 0]

  /** How many shapes the part for `step` has. */
  function PartSize(step: int): nat {
    if step == 1 || step == 7 then 2 else if 2 <= step <= 8 then 1 else 0
  }

  /** A line segment as `drawLine` creates it with pen `p`. */
  function Segment(p: F.Pen, x1: int, y1: int, x2: int, y2: int): Shape {
    Line([x1, y1, x2, y2], Paint(Some(p.color), None, Some(p.lineWidth)))
  }

  /**
   * The shapes of the stick-man part for each step, drawn with pen `p`:
   * legs, post, beam, rope, head (the circle of diameter 20 at (170, 110)),
   * body, arms, and the bar across at the last step.
   */
  function PartShapes(step: int, p: F.Pen): (r: seq<Shape>)
    ensures |r| == PartSize(step)
  {
    if step == 1 then [Segment(p, 110, 210, 120, 190), Segment(p, 130, 210, 120, 190)]
    else if step == 2 then [Segment(p, 120, 190, 120, 100)]
    else if step == 3 then [Segment(p, 120, 100, 180, 100)]
    else if step == 4 then [Segment(p, 180, 100, 180, 110)]
    else if step == 5 then [Oval([170, 110, 190, 130], Paint(None, Some(p.color), Some(p.lineWidth)))]
    else if step == 6 then [Segment(p, 180, 130, 180, 170)]
    else if step == 7 then [Segment(p, 170, 190, 180, 170), Segment(p, 180, 170, 190, 190)]
    else if step == 8 then [Segment(p, 170, 150, 190, 150)]
    else []
  }

  /**
   * The stick-man part added at each step (the `if step == …` chain): on an
   * open window exactly the step's shapes go on top, nothing at other
   * steps; the pen is kept.
   */
  function StickmanPart(g: F.Graphics, step: int): (r: F.Graphics)
    ensures r.pen == g.pen && r.closed == g.closed
    ensures !(1 <= step <= 8) ==> r == g
    ensures !g.closed ==> Shapes(r.surface.items) == Shapes(g.surface.items) + PartShapes(step, g.pen)
    ensures !g.closed ==> |Shapes(r.surface.items)| == |Shapes(g.surface.items)| + PartSize(step)
    ensures !g.closed ==> Shapes(g.surface.items) <= Shapes(r.surface.items)
  {
    if step == 1 then
      var r := F.DrawLine(F.DrawLine(g, 110, 210, 120, 190), 130, 210, 120, 190);
      assert !g.closed ==> Shapes(r.surface.items) == Shapes(g.surface.items) + PartShapes(step, g.pen);
      r
    else if step == 2 then F.DrawLine(g, 120, 190, 120, 100)
    else if step == 3 then F.DrawLine(g, 120, 100, 180, 100)
    else if step == 4 then F.DrawLine(g, 180, 100, 180, 110)
    else if step == 5 then F.DrawCircle(g, 170, 110, 20)
    else if step == 6 then F.DrawLine(g, 180, 130, 180, 170)
    else if step == 7 then
      var r := F.DrawLine(F.DrawLine(g, 170, 190, 180, 170), 180, 170, 190, 190);
      assert !g.closed ==> Shapes(r.surface.items) == Shapes(g.surface.items) + PartShapes(step, g.pen);
      r
    else if step == 8 then F.DrawLine(g, 170, 150, 190, 150)
    else g
  }

  /**
   * `update_graphics_view` up to its final `syncGameLogic`: black part for
   * the step, a white box over the text area, the masked word, and (when the
   * round is over) the result line.
   */
  function UpdateGraphicsView(g: F.Graphics, r: Round, running: bool): (v: F.Graphics)
    ensures v.closed == g.closed
    ensures g.closed ==> v.surface == g.surface
  {
    var g1 := StickmanPart(F.SetColor(g, Black), r.step);
    var g2 := F.DrawFillRect(F.SetColor(g1, F.White), 0, 0, 300, 100);
    var g3 := F.DrawString(F.SetColor(g2, Black), 20, 40, "Word : " + r.wm.user, 20, None);
    if running then F.DrawString(g3, 20, 260, "Result : " + Verdict(r), 20, None) else g3
  }

  /**
   * On an open window the view keeps what was drawn before, adds the step's
   * part, then the white box over the text area and the line showing the
   * masked word, and, when running, a last line that reads
   * "Result : LOSER" exactly when the step reached the maximum; the pen ends
   * black.
   */
  lemma ViewShapes(g: F.Graphics, r: Round, running: bool)
    requires !g.closed
    ensures var v := UpdateGraphicsView(g, r, running);
      && v.pen.color == "#000000"
      && |Shapes(v.surface.items)| == |Shapes(g.surface.items)| + PartSize(r.step) + 2 + (if running then 1 else 0)
      && Shapes(g.surface.items) <= Shapes(v.surface.items)
      && Shapes(v.surface.items)[..|g.surface.items| + PartSize(r.step)]
         == Shapes(g.surface.items) + PartShapes(r.step, g.pen.(color := "#000000"))
      && (running ==>
            && Shapes(v.surface.items)[|v.surface.items| - 1].Text?
            && (Shapes(v.surface.items)[|v.surface.items| - 1].text == "Result : LOSER" <==> r.step == MaxSteps))
    ensures var v := UpdateGraphicsView(g, r, running);
      var at := |g.surface.items| + PartSize(r.step);
      && Shapes(v.surface.items)[at] == Rectangle([0, 0, 300, 100], Paint(Some("#ffffff"), Some(""), None))
      && Shapes(v.surface.items)[at + 1] == Text(20, 40, "Word : " + r.wm.user, Some("#000000"), Font(g.pen.fontName, 20), "nw")
  {
    WordView(g, r);
    if running {
      ResultLine(g, r);
      var g3, v := UpdateGraphicsView(g, r, false), UpdateGraphicsView(g, r, running);
      var at := |g.surface.items| + PartSize(r.step);
      assert Shapes(v.surface.items)[..at] == Shapes(g3.surface.items)[..at];
    }
  }

  /** The running view is the other one plus a last line with the verdict. */
  lemma ResultLine(g: F.Graphics, r: Round)
    requires !g.closed
    ensures var g3 := UpdateGraphicsView(g, r, false);
      var v := UpdateGraphicsView(g, r, true);
      && v.pen == g3.pen
      && |Shapes(v.surface.items)| == |Shapes(g3.surface.items)| + 1
      && Shapes(g3.surface.items) <= Shapes(v.surface.items)
      && Shapes(v.surface.items)[|v.surface.items| - 1].Text?
      && (Shapes(v.surface.items)[|v.surface.items| - 1].text == "Result : LOSER" <==> r.step == MaxSteps)
  {
    var g3 := UpdateGraphicsView(g, r, false);
    assert !g3.closed;
    var v := F.DrawString(g3, 20, 260, "Result : " + Verdict(r), 20, None);
    assert v == UpdateGraphicsView(g, r, true);
    var last := Shapes(v.surface.items)[|v.surface.items| - 1];
    assert last.text == "Result : " + Verdict(r);
    if last.text == "Result : LOSER" {
      assert last.text[9..] == Verdict(r);
      assert "Result : LOSER"[9..] == "LOSER";
    }
  }

  /** The view of a round that is not yet over: part, white box, word line. */
  lemma WordView(g: F.Graphics, r: Round)
    requires !g.closed
    ensures var v := UpdateGraphicsView(g, r, false);
      var at := |g.surface.items| + PartSize(r.step);
      && !v.closed && v.pen.color == "#000000" && v.pen.fontName == g.pen.fontName
      && |Shapes(v.surface.items)| == at + 2
      && Shapes(g.surface.items) <= Shapes(v.surface.items)
      && Shapes(v.surface.items)[..at] == Shapes(g.surface.items) + PartShapes(r.step, g.pen.(color := "#000000"))
      && Shapes(v.surface.items)[at] == Rectangle([0, 0, 300, 100], Paint(Some("#ffffff"), Some(""), None))
      && Shapes(v.surface.items)[at + 1] == Text(20, 40, "Word : " + r.wm.user, Some("#000000"), Font(g.pen.fontName, 20), "nw")
  {
    BlackIs000000();
    WhiteIsFfffff();
    var g0 := F.SetColor(g, Black);
    var g1 := StickmanPart(g0, r.step);
    var g2 := F.DrawFillRect(F.SetColor(g1, F.White), 0, 0, 300, 100);
    var g3 := F.DrawString(F.SetColor(g2, Black), 20, 40, "Word : " + r.wm.user, 20, None);
    assert g3 == UpdateGraphicsView(g, r, false);
    assert g0.pen == g.pen.(color := "#000000");
    Stacked(Shapes(g.surface.items), PartShapes(r.step, g0.pen),
            Rectangle([0, 0, 300, 100], Paint(Some("#ffffff"), Some(""), None)),
            Text(20, 40, "Word : " + r.wm.user, Some("#000000"), Font(g.pen.fontName, 20), "nw"),
            Shapes(g3.surface.items));
  }

  /** A log that is `base`, then `part`, then `x` and `y` on top. */
  lemma Stacked(base: seq<Shape>, part: seq<Shape>, x: Shape, y: Shape, s: seq<Shape>)
    requires s == base + part + [x] + [y]
    ensures |s| == |base| + |part| + 2 && base <= s
    ensures s[..|base| + |part|] == base + part
    ensures s[|base| + |part|] == x && s[|base| + |part| + 1] == y
  {
    assert s[..|base|] == base;
  }
}

=== FILE: listeners.dfy ===
/**
 * Duck-typed listener dispatch. A listener is any object; for each event kind
 * the façade walks its registered listeners in registration order and calls
 * the matching method only on those that have it (`hasattr`). Callbacks are
 * user code, so dispatch is modelled by the sequence of calls it makes.
 */
module Listeners {

  datatype Callback = KeyPressed | KeyReleased | MouseClicked | MouseMoved

  /** A registered object, described by the callback methods it happens to define. */
  datatype Listener = Listener(name: string, methods: set<Callback>)

  /** The small event record handed to a callback. */
  datatype Event =
    | KeyEvent(key: string)
    | ClickEvent(x: int, y: int, button: int)
    | MotionEvent(x: int, y: int)

  /** One callback invocation: on the listener registered at position `index`. */
  datatype Invocation = Invocation(index: nat, listener: Listener, callback: Callback, event: Event)

  /**
   * `calls` invokes `cb` with `ev` on exactly the listeners that define `cb`,
   * once each, in registration order.
   */
  predicate Delivers(listeners: seq<Listener>, cb: Callback, ev: Event, calls: seq<Invocation>) {
    && (forall k :: 0 <= k < |calls| ==> Consistent(listeners, cb, ev, calls[k]))
    && (forall k, m :: 0 <= k < m < |calls| ==> calls[k].index < calls[m].index)
    && (forall i :: 0 <= i < |listeners| && cb in listeners[i].methods ==> Covered(calls, i))
  }

  /** Call `c` went to a registered listener that defines `cb`, with the one event. */
  predicate Consistent(listeners: seq<Listener>, cb: Callback, ev: Event, c: Invocation) {
    && c.index < |listeners|
    && c.listener == listeners[c.index]
    && c.callback == cb
    && c.event == ev
    && cb in c.listener.methods
  }

  /** Listener `i` received one of the calls. */
  predicate Covered(calls: seq<Invocation>, i: int) {
    exists k :: 0 <= k < |calls| && calls[k].index == i
  }

  /** Appending a call keeps the earlier ones covered and covers the new index. */
  lemma CoveredAppend(calls: seq<Invocation>, c: Invocation)
    ensures forall i :: Covered(calls, i) ==> Covered(calls + [c], i)
    ensures Covered(calls + [c], c.index)
  {
    forall i | Covered(calls, i)
      ensures Covered(calls + [c], i)
    {
      var k :| 0 <= k < |calls| && calls[k].index == i;
      assert (calls + [c])[k] == calls[k];
    }
    assert (calls + [c])[|calls|] == c;
  }

  /** The calls made after the first `i` listeners have been visited. */
  predicate Progress(listeners: seq<Listener>, cb: Callback, ev: Event, calls: seq<Invocation>, i: int) {
    && 0 <= i <= |listeners|
    && (forall k :: 0 <= k < |calls| ==> calls[k].index < i && Consistent(listeners, cb, ev, calls[k]))
    && (forall k, m :: 0 <= k < m < |calls| ==> calls[k].index < calls[m].index)
    && (forall j :: 0 <= j < i && cb in listeners[j].methods ==> Covered(calls, j))
  }

  /** One loop iteration: call listener `i` if it defines the callback. */
  function Visit(listeners: seq<Listener>, cb: Callback, ev: Event, calls: seq<Invocation>, i: int): seq<Invocation>
    requires 0 <= i < |listeners|
  {
    if cb in listeners[i].methods then calls + [Invocation(i, listeners[i], cb, ev)] else calls
  }

  lemma StepKeeps(listeners: seq<Listener>, cb: Callback, ev: Event, calls: seq<Invocation>, i: int)
    requires Progress(listeners, cb, ev, calls, i) && i < |listeners|
    ensures Progress(listeners, cb, ev, Visit(listeners, cb, ev, calls, i), i + 1)
  {
    if cb in listeners[i].methods {
      var c := Invocation(i, listeners[i], cb, ev);
      var next := calls + [c];
      CoveredAppend(calls, c);
      forall k | 0 <= k < |next|
        ensures next[k].index < i + 1 && Consistent(listeners, cb, ev, next[k])
      {
        if k < |calls| {
          assert next[k] == calls[k];
        }
      }
      forall k, m | 0 <= k < m < |next|
        ensures next[k].index < next[m].index
      {
        assert next[k] == calls[k];
        if m < |calls| {
          assert next[m] == calls[m];
        }
      }
    }
  }

  /** `for listener in listeners: if hasattr(listener, cb): listener.cb(ev)`. */
  method Dispatch(listeners: seq<Listener>, cb: Callback, ev: Event) returns (calls: seq<Invocation>)
    ensures Delivers(listeners, cb, ev, calls)
  {
    calls := [];
    var i := 0;
    while i < |listeners|
      invariant Progress(listeners, cb, ev, calls, i)
    {
      StepKeeps(listeners, cb, ev, calls, i);
      if cb in listeners[i].methods {
        calls := calls + [Invocation(i, listeners[i], cb, ev)];
      }
      i := i + 1;
    }
  }

  /** A listener without the callback is never called, whatever else it defines. */
  lemma SkipsIncapable(listeners: seq<Listener>, cb: Callback, ev: Event, calls: seq<Invocation>, i: nat)
    requires Delivers(listeners, cb, ev, calls)
    requires i < |listeners| && cb !in listeners[i].methods
    ensures forall k :: 0 <= k < |calls| ==> calls[k].index != i
  {
  }

  /** Registration appends: earlier listeners keep their positions. */
  function Register(listeners: seq<Listener>, l: Listener): (r: seq<Listener>)
    ensures |r| == |listeners| + 1 && r[|listeners|] == l
    ensures r[..|listeners|] == listeners
  {
    listeners + [l]
  }
}

=== FILE: numerals.dfy ===
/**
 * Positional numerals in bases 2..16 with lower-case digits, and the two
 * Python formatting conversions the library relies on: `"%02x" % v` (used by
 * the colour encoder) and `str(v)` for integers (used by f-strings such as
 * the window geometry).
 */
module Numerals {
  import opened Wrappers

  predicate IsHexDigit(c: char) {
    '0' <= c <= '9' || 'a' <= c <= 'f'
  }

  predicate IsDecimalDigit(c: char) {
    '0' <= c <= '9'
  }

  function DigitValue(c: char): (d: nat)
    requires IsHexDigit(c)
    ensures d < 16
    ensures IsDecimalDigit(c) <==> d < 10
  {
    if c <= '9' then (c as int - '0' as int) else (c as int - 'a' as int) + 10
  }

  /** The lower-case digit for `d`; `DigitValue` is its inverse. */
  function DigitChar(d: nat): (c: char)
    requires d < 16
    ensures IsHexDigit(c) && DigitValue(c) == d
  {
    if d < 10 then ('0' as int + d) as char else ('a' as int + d - 10) as char
  }

  predicate AllDigits(s: string, base: nat)
    requires 2 <= base <= 16
  {
    forall i :: 0 <= i < |s| ==> IsHexDigit(s[i]) && DigitValue(s[i]) < base
  }

  /** Division facts for the digit recursion, kept out of the recursive definitions. */
  lemma DivisionStep(n: nat, base: nat)
    requires 2 <= base <= n
    ensures 1 <= n / base < n
    ensures n % base < base
    ensures (n / base) * base + n % base == n
  {
  }

  /** The shortest numeral for `n` in `base` (no leading zeros, "0" for zero). */
  function ToBase(n: nat, base: nat): (s: string)
    requires 2 <= base <= 16
    decreases n
    ensures 1 <= |s| && AllDigits(s, base)
    ensures n < base <==> |s| == 1
    ensures |s| > 1 ==> s[0] != '0'
    ensures s[0] == '0' <==> n == 0
  {
    if n < base then
      [DigitChar(n)]
    else
      DivisionStep(n, base);
      ToBase(n / base, base) + [DigitChar(n % base)]
  }

  /** The value of a numeral, most significant digit first. */
  function FromBase(s: string, base: nat): nat
    requires 2 <= base <= 16
    requires AllDigits(s, base)
    decreases |s|
  {
    if s == [] then 0 else FromBase(s[..|s| - 1], base) * base + DigitValue(s[|s| - 1])
  }

  lemma {:induction false} FromBaseToBase(n: nat, base: nat)
    requires 2 <= base <= 16
    ensures FromBase(ToBase(n, base), base) == n
    decreases n
  {
    var s := ToBase(n, base);
    if n < base {
      assert s[..|s| - 1] == [];
    } else {
      DivisionStep(n, base);
      FromBaseToBase(n / base, base);
      assert s[..|s| - 1] == ToBase(n / base, base);
      assert s[|s| - 1] == DigitChar(n % base);
    }
  }

  /** Exactly two hexadecimal digits are needed for 16 <= n < 256. */
  lemma TwoHexDigits(n: nat)
    requires 16 <= n < 256
    ensures |ToBase(n, 16)| == 2
  {
    assert n / 16 < 16;
  }

  /**
   * Python's `"%02x" % v` for an integer `v`: lower-case hexadecimal, padded
   * with zeros to width 2; a negative value is printed as `-` followed by the
   * digits of its magnitude (the sign already fills the width).
   */
  function Hex02(v: int): (s: string)
    ensures 0 <= v < 256 ==> |s| == 2 && AllDigits(s, 16) && FromBase(s, 16) == v
    ensures v < 0 <==> (|s| > 0 && s[0] == '-')
    ensures v >= 256 ==> |s| > 2
  {
    if v < 0 then
      "-" + ToBase(-v, 16)
    else if v < 16 then
      var d := ToBase(v, 16);
      FromBaseToBase(v, 16);
      assert ("0" + d)[..1] == "0";
      assert FromBase(("0" + d)[..1], 16) == 0;
      "0" + d
    else if v < 256 then
      TwoHexDigits(v);
      FromBaseToBase(v, 16);
      ToBase(v, 16)
    else
      assert v / 16 >= 16;
      ToBase(v, 16)
  }

  /** Python's `str(v)` for an integer `v`. */
  function DecimalString(v: int): (s: string)
    ensures |s| >= 1
    ensures v < 0 <==> s[0] == '-'
    ensures forall i :: 0 <= i < |s| ==> IsDecimalDigit(s[i]) || (i == 0 && s[i] == '-')
    ensures s[0] == '0' ==> s == "0"
    ensures v < 0 ==> |s| >= 2 && s[1] != '0'
  {
    if v < 0 then "-" + ToBase(-v, 10) else ToBase(v, 10)
  }

  /** The shape of `str(v)`: an optional '-' followed by at least one digit. */
  predicate IsDecimalText(s: string) {
    && |s| >= 1
    && (forall i :: 1 <= i < |s| ==> IsDecimalDigit(s[i]))
    && (IsDecimalDigit(s[0]) || (s[0] == '-' && |s| >= 2))
  }

  /** Reads back a string produced by `DecimalString`. */
  function ParseDecimal(s: string): int
    requires IsDecimalText(s)
  {
    assert forall i :: 0 <= i < |s| && IsDecimalDigit(s[i]) ==> IsHexDigit(s[i]) && DigitValue(s[i]) < 10;
    if s[0] == '-' then
      var magnitude: int := FromBase(s[1..], 10);
      -magnitude
    else
      FromBase(s, 10)
  }

  lemma DecimalRoundTrip(v: int)
    ensures ParseDecimal(DecimalString(v)) == v
  {
    var s := DecimalString(v);
    if v < 0 {
      assert s[1..] == ToBase(-v, 10);
      FromBaseToBase(-v, 10);
    } else {
      FromBaseToBase(v, 10);
    }
  }

  /** Reads an integer written as `str(v)`, or nothing. */
  function ReadInt(s: string): Option<int> {
    if IsDecimalText(s) then Some(ParseDecimal(s)) else None
  }

  lemma ReadDecimalString(v: int)
    ensures ReadInt(DecimalString(v)) == Some(v)
  {
    var s := DecimalString(v);
    if v < 0 {
      assert s == "-" + ToBase(-v, 10);
    }
    assert IsDecimalText(s);
    DecimalRoundTrip(v);
  }
}

=== FILE: outline.dfy ===
/**
 * The offsets at which `drawFancyString` stamps its white outline: the two
 * nested `range(-t, t + 1)` loops, outer over dx and inner over dy, skipping
 * the centre (0, 0).
 */
module Outline {

  /**
   * One pass of the inner loop, counted by its iteration number: iteration
   * `j` of pass `i` visits (dx, dy) = (i - t, j - t), so `j` running from 0
   * to 2t is dy running over `range(-t, t + 1)`.
   */
  function Column(i: int, j: int, t: int): seq<(int, int)>
    decreases 2 * t - j + 1
  {
    if j > 2 * t then [] else (if i == t && j == t then [] else [(i - t, j - t)]) + Column(i, j + 1, t)
  }

  /** The outer loop from iteration `i` on: dx = i - t up to t. */
  function Rows(i: int, t: int): seq<(int, int)>
    decreases 2 * t - i + 1
  {
    if i > 2 * t then [] else Column(i, 0, t) + Rows(i + 1, t)
  }

  /** The whole ring of thickness `t`; empty unless `t > 0`. */
  function Offsets(t: int): (r: seq<(int, int)>)
    ensures t <= 0 ==> r == []
    ensures t > 0 ==> |r| == (2 * t + 1) * (2 * t + 1) - 1
  {
    if t > 0 then
      RowsSize(0, t);
      Rows(0, t)
    else
      []
  }

  /** Offset `p` lies in the square [-t, t]² and is not the centre. */
  predicate InRing(p: (int, int), t: int) {
    -t <= p.0 <= t && -t <= p.1 <= t && p != (0, 0)
  }

  /** Strict lexicographic order on (dx, dy): the order the loops visit. */
  predicate Before(p: (int, int), q: (int, int)) {
    p.0 < q.0 || (p.0 == q.0 && p.1 < q.1)
  }

  predicate Ascending(s: seq<(int, int)>) {
    forall i, j :: 0 <= i < j < |s| ==> Before(s[i], s[j])
  }

  lemma {:induction false} ColumnSize(i: int, j: int, t: int)
    requires 0 <= j <= 2 * t + 1
    ensures |Column(i, j, t)| == (2 * t - j + 1) - (if i == t && j <= t then 1 else 0)
    decreases 2 * t - j + 1
  {
    if j <= 2 * t {
      ColumnSize(i, j + 1, t);
    }
  }

  lemma {:induction false} ColumnMembers(i: int, j: int, t: int, p: (int, int))
    ensures p in Column(i, j, t) <==> p.0 == i - t && j - t <= p.1 <= t && p != (0, 0)
    decreases 2 * t - j + 1
  {
    if j <= 2 * t {
      ColumnMembers(i, j + 1, t, p);
    }
  }

  lemma {:induction false} ColumnAscending(i: int, j: int, t: int)
    ensures Ascending(Column(i, j, t))
    decreases 2 * t - j + 1
  {
    if j <= 2 * t {
      var head := if i == t && j == t then [] else [(i - t, j - t)];
      var rest := Column(i, j + 1, t);
      ColumnAscending(i, j + 1, t);
      forall a, b | 0 <= a < |head| && 0 <= b < |rest|
        ensures Before(head[a], rest[b])
      {
        ColumnMembers(i, j + 1, t, rest[b]);
      }
      AscendingConcat(head, rest);
    }
  }

  lemma {:induction false} RowsSize(i: int, t: int)
    requires t >= 0 && 0 <= i <= 2 * t + 1
    ensures |Rows(i, t)| == (2 * t - i + 1) * (2 * t + 1) - (if i <= t then 1 else 0)
    decreases 2 * t - i + 1
  {
    if i <= 2 * t {
      ColumnSize(i, 0, t);
      RowsSize(i + 1, t);
      assert (2 * t - i + 1) * (2 * t + 1) == (2 * t + 1) + (2 * t - i) * (2 * t + 1);
    }
  }

  lemma {:induction false} RowsMembers(i: int, t: int, p: (int, int))
    ensures p in Rows(i, t) <==> i - t <= p.0 <= t && -t <= p.1 <= t && p != (0, 0)
    decreases 2 * t - i + 1
  {
    if i <= 2 * t {
      ColumnMembers(i, 0, t, p);
      RowsMembers(i + 1, t, p);
    }
  }

  lemma {:induction false} RowsAscending(i: int, t: int)
    ensures Ascending(Rows(i, t))
    decreases 2 * t - i + 1
  {
    if i <= 2 * t {
      var col := Column(i, 0, t);
      var rest := Rows(i + 1, t);
      ColumnAscending(i, 0, t);
      RowsAscending(i + 1, t);
      forall a, b | 0 <= a < |col| && 0 <= b < |rest|
        ensures Before(col[a], rest[b])
      {
        ColumnMembers(i, 0, t, col[a]);
        RowsMembers(i + 1, t, rest[b]);
      }
      AscendingConcat(col, rest);
    }
  }

  lemma AscendingConcat(a: seq<(int, int)>, b: seq<(int, int)>)
    requires Ascending(a) && Ascending(b)
    requires forall i, j :: 0 <= i < |a| && 0 <= j < |b| ==> Before(a[i], b[j])
    ensures Ascending(a + b)
  {
    forall i, j | 0 <= i < j < |a + b|
      ensures Before((a + b)[i], (a + b)[j])
    {
      if j < |a| {
      } else if i >= |a| {
        assert (a + b)[i] == b[i - |a|] && (a + b)[j] == b[j - |a|];
      } else {
        assert (a + b)[j] == b[j - |a|];
      }
    }
  }

  /**
   * The ring of thickness t > 0 has (2t+1)² − 1 offsets: exactly the points
   * of [-t, t]² other than the centre, each once, visited dx-major.
   */
  lemma RingShape(t: int)
    requires t > 0
    ensures |Offsets(t)| == (2 * t + 1) * (2 * t + 1) - 1
    ensures forall p :: p in Offsets(t) <==> InRing(p, t)
    ensures Ascending(Offsets(t))
  {
    RowsSize(0, t);
    forall p
      ensures p in Offsets(t) <==> InRing(p, t)
    {
      RowsMembers(0, t, p);
    }
    RowsAscending(0, t);
  }

  /** Ascending offsets are pairwise distinct, so no offset is stamped twice. */
  lemma AscendingDistinct(s: seq<(int, int)>)
    requires Ascending(s)
    ensures forall i, j :: 0 <= i < |s| && 0 <= j < |s| && i != j ==> s[i] != s[j]
  {
    forall i, j | 0 <= i < |s| && 0 <= j < |s| && i != j
      ensures s[i] != s[j]
    {
      if i < j {
        assert Before(s[i], s[j]);
      } else {
        assert Before(s[j], s[i]);
      }
    }
  }

  /** Every ring offset has a position in the loop order. */
  lemma RingIndex(t: int, p: (int, int)) returns (k: int)
    requires t > 0 && InRing(p, t)
    ensures 0 <= k < |Offsets(t)| && Offsets(t)[k] == p
  {
    RingShape(t);
    k :| 0 <= k < |Offsets(t)| && Offsets(t)[k] == p;
  }

  /** Every visited offset is on the ring. */
  lemma RingEntries(t: int)
    requires t > 0
    ensures forall k :: 0 <= k < |Offsets(t)| ==> InRing(Offsets(t)[k], t)
  {
    var o := Offsets(t);
    RingShape(t);
    forall k | 0 <= k < |o|
      ensures InRing(o[k], t)
    {
      assert o[k] in o;
    }
  }

  /** No offset is visited twice. */
  lemma RingDistinct(t: int)
    ensures forall i, j :: 0 <= i < j < |Offsets(t)| ==> Offsets(t)[i] != Offsets(t)[j]
  {
    if t > 0 {
      RingShape(t);
      AscendingDistinct(Offsets(t));
    }
  }

  lemma ThicknessTwo()
    ensures |Offsets(2)| == 24
  {
    RingShape(2);
  }
}

=== FILE: session.dfy ===
/**
 * A drawing session as a sequence of façade calls. `Apply` runs one public
 * method of `FunGraphics`; `Run` runs a whole sequence. The lemmas here are
 * about sequences of calls: a closed window stays closed and its log never
 * changes, the layer switches are invisible to the log, and `clear` wipes
 * whatever either layer received.
 */
module Session {
  import opened Wrappers
  import opened Canvas
  import opened Listeners
  import opened Bitmap
  import opened Colour
  import F = FunGraphics

  datatype Command =
    | Clear(background: seq<int>)
    | SetColor(rgb: seq<int>)
    | SetPenWidth(penWidth: real)
    | SetPixel(x: int, y: int, color: Option<seq<int>>)
    | DrawLine(x: int, y: int, x2: int, y2: int)
    | DrawRect(x: int, y: int, w: int, h: int)
    | DrawFillRect(x: int, y: int, w: int, h: int)
    | DrawCircle(x: int, y: int, d: int)
    | DrawFilledCircle(x: int, y: int, d: int)
    | DrawFilledOval(x: int, y: int, w: int, h: int)
    | DrawPolygon(points: seq<(int, int)>)
    | DrawFilledPolygon(points: seq<(int, int)>, color: Option<seq<int>>)
    | DrawString(x: int, y: int, text: string, fontSize: int, color: Option<seq<int>>)
    | GetStringSize(text: string, probeSize: Option<int>)
    | DrawStringAligned(x: int, y: int, text: string, fontSize: int, color: Option<seq<int>>,
                        halign: string, valign: string)
    | DrawFancyString(x: int, y: int, text: string, fontSize: int, color: Option<seq<int>>,
                      shadowOffset: int, thickness: int)
    | DrawPicture(x: int, y: int, bitmap: Bitmap)
    | DrawProcessedPicture(x: int, y: int, bitmap: Bitmap, processed: Image)
    | DrawBackground
    | DrawForeground
    | SetKeyManager(listener: Listener)
    | AddMouseListener(listener: Listener)
    | AddMouseMotionListener(listener: Listener)
  {
    predicate IsLayerSwitch() {
      DrawBackground? || DrawForeground?
    }

    /** The calls that start with `if self.window_closed: return` in the given copy. */
    predicate IsGuarded(v: F.Variant) {
      !(SetColor? || SetPenWidth? || IsLayerSwitch() || SetKeyManager? || AddMouseListener?
        || AddMouseMotionListener?)
      && (GetStringSize? ==> v == F.SingleFile)
    }
  }

  /**
   * One façade call; a measurement's answer is dropped, its effect on the
   * state kept. On a closed window a guarded call is a no-op.
   */
  function Apply(v: F.Variant, g: F.Graphics, c: Command): (r: F.Graphics)
    ensures g.closed && c.IsGuarded(v) ==> r == g
  {
    match c
    case Clear(rgb) => F.Clear(g, rgb)
    case SetColor(rgb) => F.SetColor(g, rgb)
    case SetPenWidth(w) => F.SetPenWidth(g, w)
    case SetPixel(x, y, color) => F.SetPixel(g, x, y, color)
    case DrawLine(x1, y1, x2, y2) => F.DrawLine(g, x1, y1, x2, y2)
    case DrawRect(x, y, w, h) => F.DrawRect(g, x, y, w, h)
    case DrawFillRect(x, y, w, h) => F.DrawFillRect(g, x, y, w, h)
    case DrawCircle(x, y, d) => F.DrawCircle(g, x, y, d)
    case DrawFilledCircle(x, y, d) => F.DrawFilledCircle(g, x, y, d)
    case DrawFilledOval(x, y, w, h) => F.DrawFilledOval(g, x, y, w, h)
    case DrawPolygon(points) => F.DrawPolygon(g, points)
    case DrawFilledPolygon(points, color) => F.DrawFilledPolygon(g, points, color)
    case DrawString(x, y, text, size, color) => F.DrawString(g, x, y, text, size, color)
    case GetStringSize(text, size) => F.GetStringSize(v, g, text, size, (s: Shape) => None).after
    case DrawStringAligned(x, y, text, size, color, h, va) => F.DrawStringAligned(g, x, y, text, size, color, h, va)
    case DrawFancyString(x, y, text, size, color, s, t) => F.DrawFancyString(g, x, y, text, size, color, s, t)
    case DrawPicture(x, y, b) => F.DrawPicture(g, x, y, b)
    case DrawProcessedPicture(x, y, b, p) => F.DrawProcessedPicture(g, x, y, b, p)
    case DrawBackground => F.DrawBackground(g)
    case DrawForeground => F.DrawForeground(g)
    case SetKeyManager(l) => F.SetKeyManager(g, l)
    case AddMouseListener(l) => F.AddMouseListener(g, l)
    case AddMouseMotionListener(l) => F.AddMouseMotionListener(g, l)
  }

  /** A sequence of calls in order; once closed, a run of guarded calls changes nothing at all. */
  function Run(v: F.Variant, g: F.Graphics, cmds: seq<Command>): (r: F.Graphics)
    decreases |cmds|
    ensures g.closed && (forall i :: 0 <= i < |cmds| ==> cmds[i].IsGuarded(v)) ==> r == g
  {
    if cmds == [] then g else Run(v, Apply(v, g, cmds[0]), cmds[1..])
  }

  /**
   * No call closes or reopens the window, none breaks the id numbering, none
   * touches the background except `clear`, and listener lists only grow.
   */
  lemma ApplyInvariants(v: F.Variant, g: F.Graphics, c: Command)
    ensures Apply(v, g, c).closed == g.closed
    ensures g.Valid() ==> Apply(v, g, c).Valid()
    ensures !c.Clear? ==> Apply(v, g, c).surface.background == g.surface.background
    ensures g.keyListeners <= Apply(v, g, c).keyListeners
    ensures g.mouseListeners <= Apply(v, g, c).mouseListeners
    ensures g.motionListeners <= Apply(v, g, c).motionListeners
  {
    if c.IsLayerSwitch() || c.SetKeyManager? || c.AddMouseListener? || c.AddMouseMotionListener? {
      PenAndListenerInvariants(v, g, c);
    } else if c.Clear? || c.SetColor? || c.SetPenWidth? || c.GetStringSize? {
    } else {
      DrawingInvariants(v, g, c);
    }
  }

  /** Layer switches and registrations leave the canvas alone. */
  lemma PenAndListenerInvariants(v: F.Variant, g: F.Graphics, c: Command)
    requires c.IsLayerSwitch() || c.SetKeyManager? || c.AddMouseListener? || c.AddMouseMotionListener?
    ensures Apply(v, g, c).surface == g.surface && Apply(v, g, c).closed == g.closed
    ensures g.keyListeners <= Apply(v, g, c).keyListeners
    ensures g.mouseListeners <= Apply(v, g, c).mouseListeners
    ensures g.motionListeners <= Apply(v, g, c).motionListeners
  {
  }

  /** The drawing calls keep the same invariants as every other call. */
  lemma DrawingInvariants(v: F.Variant, g: F.Graphics, c: Command)
    requires !(c.IsLayerSwitch() || c.SetKeyManager? || c.AddMouseListener? || c.AddMouseMotionListener?)
    requires !(c.Clear? || c.SetColor? || c.SetPenWidth? || c.GetStringSize?)
    ensures Apply(v, g, c).closed == g.closed
    ensures g.Valid() ==> Apply(v, g, c).Valid()
    ensures Apply(v, g, c).surface.background == g.surface.background
    ensures Apply(v, g, c).keyListeners == g.keyListeners
    ensures Apply(v, g, c).mouseListeners == g.mouseListeners
    ensures Apply(v, g, c).motionListeners == g.motionListeners
  {
    match c
    case SetPixel(x, y, color) =>
    case DrawLine(x1, y1, x2, y2) =>
    case DrawRect(x, y, w, h) =>
    case DrawFillRect(x, y, w, h) =>
    case DrawCircle(x, y, d) =>
    case DrawFilledCircle(x, y, d) =>
    case DrawFilledOval(x, y, w, h) =>
    case DrawPolygon(points) =>
    case DrawFilledPolygon(points, color) =>
    case DrawString(x, y, text, size, color) =>
    case DrawStringAligned(x, y, text, size, color, h, va) =>
    case DrawFancyString(x, y, text, size, color, s, t) =>
    case DrawPicture(x, y, b) =>
    case DrawProcessedPicture(x, y, b, p) =>
  }

  lemma {:induction false} RunInvariants(v: F.Variant, g: F.Graphics, cmds: seq<Command>)
    ensures Run(v, g, cmds).closed == g.closed
    ensures g.Valid() ==> Run(v, g, cmds).Valid()
    ensures g.keyListeners <= Run(v, g, cmds).keyListeners
    ensures g.mouseListeners <= Run(v, g, cmds).mouseListeners
    ensures g.motionListeners <= Run(v, g, cmds).motionListeners
    ensures (forall i :: 0 <= i < |cmds| ==> !cmds[i].Clear?) ==>
            Run(v, g, cmds).surface.background == g.surface.background
    decreases |cmds|
  {
    if cmds != [] {
      ApplyInvariants(v, g, cmds[0]);
      RunInvariants(v, Apply(v, g, cmds[0]), cmds[1..]);
      assert forall i :: 0 <= i < |cmds[1..]| ==> cmds[1..][i] == cmds[i + 1];
    }
  }

  /**
   * Once closed, no call sequence at all changes the canvas log, in either
   * copy. For the package this rests on the model's unguarded measurement
   * deleting its own probe. Only the single file also leaves the id counter
   * alone.
   */
  lemma {:induction false} ClosedLogFrozen(v: F.Variant, g: F.Graphics, cmds: seq<Command>)
    requires g.closed && g.Valid()
    ensures Run(v, g, cmds).surface.items == g.surface.items
    ensures Run(v, g, cmds).surface.background == g.surface.background
    ensures v == F.SingleFile ==> Run(v, g, cmds).surface == g.surface
    decreases |cmds|
  {
    if cmds != [] {
      var g1 := Apply(v, g, cmds[0]);
      ApplyInvariants(v, g, cmds[0]);
      assert g1.surface.items == g.surface.items;
      assert v == F.SingleFile ==> g1.surface == g.surface;
      ClosedLogFrozen(v, g1, cmds[1..]);
    }
  }

  /**
   * In this model the package's measurement on a closed window creates and
   * deletes a probe, so the id counter advances; the single file's returns
   * before touching the canvas.
   */
  lemma PackageProbeOnClosedWindow(g: F.Graphics, text: string)
    requires g.closed
    ensures Run(F.Package, g, [GetStringSize(text, None)]).surface.nextId == g.surface.nextId + 1
    ensures Run(F.SingleFile, g, [GetStringSize(text, None)]) == g
  {
    assert [GetStringSize(text, None)][1..] == [];
  }

  /** The calls without the layer switches. */
  function WithoutLayerSwitches(cmds: seq<Command>): (r: seq<Command>)
    decreases |cmds|
    ensures forall i :: 0 <= i < |r| ==> !r[i].IsLayerSwitch()
    ensures |r| <= |cmds|
  {
    if cmds == [] then []
    else if cmds[0].IsLayerSwitch() then WithoutLayerSwitches(cmds[1..])
    else [cmds[0]] + WithoutLayerSwitches(cmds[1..])
  }

  /** Two states that differ at most in the active layer. */
  predicate SameButLayer(a: F.Graphics, b: F.Graphics) {
    a.(layer := F.Foreground) == b.(layer := F.Foreground)
  }

  /** No call reads the layer flag. */
  lemma ApplyIgnoresLayer(v: F.Variant, a: F.Graphics, b: F.Graphics, c: Command)
    requires SameButLayer(a, b)
    ensures SameButLayer(Apply(v, a, c), Apply(v, b, c))
  {
    if c.IsLayerSwitch() || c.SetKeyManager? || c.AddMouseListener? || c.AddMouseMotionListener? {
      RegistrationIgnoresLayer(v, a, b, c);
    } else if c.Clear? || c.SetColor? || c.SetPenWidth? || c.GetStringSize? {
      PenIgnoresLayer(v, a, b, c);
    } else {
      DrawingIgnoresLayer(v, a, b, c);
    }
  }

  lemma RegistrationIgnoresLayer(v: F.Variant, a: F.Graphics, b: F.Graphics, c: Command)
    requires c.IsLayerSwitch() || c.SetKeyManager? || c.AddMouseListener? || c.AddMouseMotionListener?
    requires SameButLayer(a, b)
    ensures SameButLayer(Apply(v, a, c), Apply(v, b, c))
  {
    var a' := a.(layer := F.Foreground);
    assert a == a'.(layer := a.layer);
    assert b == a'.(layer := b.layer);
  }

  lemma PenIgnoresLayer(v: F.Variant, a: F.Graphics, b: F.Graphics, c: Command)
    requires c.Clear? || c.SetColor? || c.SetPenWidth? || c.GetStringSize?
    requires SameButLayer(a, b)
    ensures SameButLayer(Apply(v, a, c), Apply(v, b, c))
  {
    var a' := a.(layer := F.Foreground);
    assert a == a'.(layer := a.layer);
    assert b == a'.(layer := b.layer);
  }

  lemma DrawingIgnoresLayer(v: F.Variant, a: F.Graphics, b: F.Graphics, c: Command)
    requires !(c.IsLayerSwitch() || c.SetKeyManager? || c.AddMouseListener? || c.AddMouseMotionListener?)
    requires !(c.Clear? || c.SetColor? || c.SetPenWidth? || c.GetStringSize?)
    requires SameButLayer(a, b)
    ensures SameButLayer(Apply(v, a, c), Apply(v, b, c))
  {
    var a' := a.(layer := F.Foreground);
    assert a == a'.(layer := a.layer);
    assert b == a'.(layer := b.layer);
  }

  lemma {:induction false} RunIgnoresLayer(v: F.Variant, a: F.Graphics, b: F.Graphics, cmds: seq<Command>)
    requires SameButLayer(a, b)
    ensures SameButLayer(Run(v, a, cmds), Run(v, b, WithoutLayerSwitches(cmds)))
    decreases |cmds|
  {
    if cmds != [] {
      var c := cmds[0];
      if c.IsLayerSwitch() {
        RunIgnoresLayer(v, Apply(v, a, c), b, cmds[1..]);
      } else {
        ApplyIgnoresLayer(v, a, b, c);
        assert WithoutLayerSwitches(cmds) == [c] + WithoutLayerSwitches(cmds[1..]);
        assert ([c] + WithoutLayerSwitches(cmds[1..]))[1..] == WithoutLayerSwitches(cmds[1..]);
        RunIgnoresLayer(v, Apply(v, a, c), Apply(v, b, c), cmds[1..]);
      }
    }
  }

  /**
   * Layers are a naming convention over one surface: removing every layer
   * switch from a session leaves the canvas exactly as it was, so switching
   * never deletes what either layer received.
   */
  lemma LayerSwitchesInvisible(v: F.Variant, g: F.Graphics, cmds: seq<Command>)
    ensures Run(v, g, cmds).surface == Run(v, g, WithoutLayerSwitches(cmds)).surface
  {
    RunIgnoresLayer(v, g, g, cmds);
  }

  lemma {:induction false} RunAppend(v: F.Variant, g: F.Graphics, cmds: seq<Command>, last: Command)
    ensures Run(v, g, cmds + [last]) == Apply(v, Run(v, g, cmds), last)
    decreases |cmds|
  {
    if cmds == [] {
      assert [last][1..] == [];
    } else {
      assert (cmds + [last])[0] == cmds[0];
      assert (cmds + [last])[1..] == cmds[1..] + [last];
      RunAppend(v, Apply(v, g, cmds[0]), cmds[1..], last);
    }
  }

  /**
   * Whatever was drawn on either layer, a final `clear` on an open window
   * leaves an empty log with the requested background.
   */
  lemma ClearWipesEverything(v: F.Variant, g: F.Graphics, cmds: seq<Command>, color: seq<int>)
    requires !g.closed
    ensures Run(v, g, cmds + [Clear(color)]).surface.items == []
    ensures Run(v, g, cmds + [Clear(color)]).surface.background == RgbToHex(color)
  {
    RunAppend(v, g, cmds, Clear(color));
    RunInvariants(v, g, cmds);
  }
}

=== FILE: wrappers.dfy ===
/** Optional values, standing for Python's `None` versus a present value. */
module Wrappers {

  datatype Option<+T> = None | Some(value: T) {

    /** The value if present, otherwise `default` (Python's `x if x is not None else default`). */
    function GetOr(default: T): T {
      match this
      case Some(v) => v
      case None => default
    }
  }
}
